=== FILE: README.md ===
# ai-name-buddy, modelled in Dafny

ai-name-buddy is a command-line assistant that keeps a dictionary of technical
keywords and their standard abbreviations. The dictionary lives in a SQLite
table whose schema is derived from the pydantic `Word` model. For each keyword
the user types, the program:

1. rejects keywords already stored;
2. asks an LLM agent for an abbreviation and a description;
3. rejects abbreviations already stored;
4. asks the user to confirm;
5. inserts the word and adds it to a vector store.

This project models the deterministic core of that program and proves what it
guarantees. It has six modules:

- `Wrappers`: `Option` and `Result`.
- `Strings`: the Python `str` operations the program uses. These are
  `lower()`, `strip()`, `split()`, `" ".join`, the substring test `in` and
  `str(int)`.
- `Models` (models.py): the `Word` record, its validating constructor, its
  `model_dump()` and `embed_format()`.
- `Database` (database.py):
  - the schema builder (`get_sql_type`, the column list of
    `create_table_from_model`, `get_field_names`);
  - the `words` table with its NOT NULL and UNIQUE constraints, the two
    existence checks, `insert_word`, `get_all_words`, and the
    skip-if-populated bulk load.
- `Agents` (agents.py): the two lookup tools and the `(avoid:` marker test of
  the suggestion tool.
- `Cli` (main.py):
  - one iteration of the `while True` loop as a pure function
    `Step(store, turn)`, built in three layers:
    - `Propose`: up to the save question;
    - `Admit`: up to `insert_word`;
    - `Step`: the insert itself.
  - a session, `Run(Step, store, turns)`. It folds any loop body over the
    turns until the first `exit`.

The database is a `Store`: an `available` flag and a `Table`. The flag stands
for `create_connection()` returning a connection. The table has its columns,
which come from the schema builder, and rows as `dict(sqlite3.Row)` gives
them. It also has the next AUTOINCREMENT id. `Insert` is a small model of
SQLite's INSERT. It rejects unknown columns first, then a value `sqlite3`
cannot bind. It then converts each value by its column's affinity (a TEXT
column stores integers as decimal text) and rejects NULL in a NOT NULL
column, then a repeated non-NULL value in a UNIQUE column. So "`insert_word`
succeeds exactly when keyword and abbreviation are new" is proved from the
derived schema, not assumed.

Modelling decisions:

- **Agent reply.** The agent's reply is an input. It is one of:
  - the agent raised;
  - the output is not JSON;
  - the decoded JSON value.
- **Vector store.** Whether adding to the vector store succeeds is an input
  flag.
- **Non-string abbreviations.** A truthy but non-string abbreviation is
  followed as the code handles it:
  - booleans are bound as 0 and 1, and integers within the signed 64-bit
    range as themselves; the TEXT column compares both as decimal text;
  - lists, objects and integers outside the signed 64-bit range fail at
    binding (`sqlite3` raises), but only once a connection is open;
  - in every case, `Word(...)` then rejects the value, because pydantic does
    not coerce numbers to `str`.
- **Retry procedure.** The agent's prompt (agents.py:108-115) describes a
  generate, check, avoid and retry procedure. It exists only as prompt text
  for the LLM: the code has no retry counter, avoid set or casing check, so
  no such controller is modelled.

## Model

| member | source | states |
|---|---|---|
| `Models.ConstructWord` | models.py:5-8 | `Word(**kwargs)` succeeds exactly when `keyword` and `abbreviation` are given as strings and `description` is a string, `None` or absent. A missing `keyword` is the first error reported. On success the record's dump gives back the arguments, with `None` for an absent description. |
| `Models.ConstructDump` | models.py:5-8 | Building a `Word` from its own `model_dump()` gives the same word back. |
| `Models.EmbedRoundTrip` | models.py:10-12 | When keyword and abbreviation contain no `\|`, the embedding text reads back as keyword, abbreviation and description text, with `''` for `None`. |
| `Models.EmbedNoneIsEmpty` | models.py:12 | The embedding text is the same for description `None` and description `""`. |
| `Models.EmbedInjective` | models.py:12 | For `\|`-free keywords and abbreviations, two words have the same embedding text if and only if they agree on keyword, abbreviation and description text. |
| `Models.EmbedCollidesWithSeparators` | models.py:12 | Without that restriction, two different words share one embedding text. |
| `Database.GetSqlType` | database.py:19-38 | The SQL type is INTEGER exactly for `int`/`bool`, REAL exactly for `float`, BLOB exactly for `bytes`, and TEXT for everything else. The type looked up is the first type argument of an annotation with an origin. |
| `Database.SqlTypeOfGeneric` | database.py:22-27 | A generic annotation gets the type of its first argument, looked up without unwrapping again. A nested generic falls back to TEXT. |
| `Database.SqlTypeOfOptional` | database.py:22-27 | `Optional[X]` has the SQL type of `X`; `Optional[str]` is TEXT. |
| `Database.ColumnDefinitionIsJoin` | database.py:56-64 | A column definition is its name, type and constraint words joined by single spaces. |
| `Database.ParseColumnDefinitionOf` | database.py:56-64 | A column definition reads back as its name, SQL type and NOT NULL/UNIQUE flags. Its first word is the field name. |
| `Database.FieldColumnDefinition` | database.py:48-66 | A field's definition names the field and carries its SQL type. It has NOT NULL exactly when the annotation has no origin, and UNIQUE exactly for `keyword` and `abbreviation`. |
| `Database.CreateTableColumnsSpec` | database.py:43-66 | The column list starts with `id INTEGER PRIMARY KEY AUTOINCREMENT`, then has exactly one definition per model field in declaration order. Each definition defines its field as above. |
| `Database.PrintedColumnNames` | database.py:79 | The first word of each definition is `id`, then the field names in order. |
| `Database.WordTableDefinition` | database.py:40-66 | For `Word` the columns are `keyword TEXT NOT NULL UNIQUE`, `abbreviation TEXT NOT NULL UNIQUE` and `description TEXT`. |
| `Database.WordFieldNames` | database.py:83-85 | `get_field_names()` is `keyword`, `abbreviation`, `description`, in declaration order. |
| `Database.AnyRowHas` | database.py:134-135 | `WHERE col = ?` finds a row exactly when some row holds that non-NULL value. NULL never compares equal. |
| `Database.KeywordExists` | database.py:127-137 | True exactly when a connection is available and some row's keyword equals the argument. Without a connection it is False. |
| `Database.AbbreviationExists` | database.py:139-149 | The same for the abbreviation column. |
| `Database.Bind` | database.py:146 | `sqlite3` binds `None` and `str` as they are and `bool` as 0 or 1. An `int` binds only within the signed 64-bit range. No other value that reaches it (a list or a dict) binds. |
| `Database.AffinityTextInjective` | database.py:56 | A TEXT column stores two integers as the same text exactly when they are equal. |
| `Database.StoredTextValues` | database.py:164-167 | Values that are all text or NULL always bind and are stored unchanged. |
| `Database.Insert` | database.py:163-167 | INSERT succeeds exactly when every key is a column, every value binds, and the stored values (after each column's affinity) put no NULL in a NOT NULL column and repeat no stored value in a UNIQUE column. The errors come in that order. Success appends exactly one row, holding the stored values, and advances the id. |
| `Database.InsertKeepsInvariant` | database.py:163-167 | A successful INSERT keeps the guarantee that NOT NULL columns hold values and UNIQUE columns never repeat. |
| `Database.AppendKeepsInvariant` | database.py:63-64 | A row that passes the NOT NULL and UNIQUE checks can be appended without breaking their guarantees. |
| `Database.WordStored` | database.py:164-167 | A word's values are all text or NULL, so they bind and are stored exactly as dumped. |
| `Database.WordMeetsColumns` | database.py:159-164 | A word's dump names only columns of the `words` table and fills both NOT NULL columns. |
| `Database.IntegerRepeatsStoredText` | database.py:63-64 | In the `words` table an integer abbreviation fails the UNIQUE check when its decimal text is already stored: the TEXT column converts it before comparing. |
| `Database.WordUniqueMet` | database.py:63-64 | A word passes the UNIQUE checks exactly when no row holds its keyword and no row holds its abbreviation. |
| `Database.InsertWordRow` | database.py:159-167 | On the `words` table, inserting a word succeeds exactly when keyword and abbreviation are both new. The appended row is the word's dump plus the id. |
| `Database.InsertWord` | database.py:151-180 | A `False` result leaves the store unchanged. `True` needs a connection and keeps the columns. |
| `Database.InsertWordAppendsOneRow` | database.py:163-171 | A successful `insert_word` appends exactly one row, the new row for the word. |
| `Database.InsertWordSpec` | database.py:151-175 | On the `words` table `insert_word` returns True exactly when a connection is available and neither keyword nor abbreviation is stored. The table then gains the word's row at the end. |
| `Database.InsertWordKeepsInvariant` | database.py:151-175 | Every store `insert_word` leaves behind keeps the NOT NULL and UNIQUE guarantees. |
| `Database.WordTableHasNoDuplicates` | database.py:63-64 | In a `words` table that keeps its constraints, no two rows share a keyword or an abbreviation. |
| `Database.WordOfRowIgnoresOtherColumns` | database.py:196-206 | A column that is not a model field, such as `id`, does not change the word read from a row. |
| `Database.WordRowRoundTrip` | database.py:198-206 | The row stored for a word reads back as that word. |
| `Database.RowHoldsWordReads` | database.py:200-206 | A row whose keyword, abbreviation and description cells are a word's reads back as that word, whatever its other columns. |
| `Database.Collect` | database.py:198-206 | Collecting results succeeds exactly when every result succeeds, and then gives their values in order. |
| `Database.WordsOfRows` | database.py:198-206 | Reading the rows succeeds exactly when every row validates, and then gives one word per row, in row order. |
| `Database.GetAllWords` | database.py:182-214 | Without a connection the result is the empty list. Otherwise a successful read gives one word per row, each the word read from that row. |
| `Database.WordsOfRowsHeld` | database.py:198-206 | Rows that hold the words `ws`, one per word, read back as exactly `ws`. |
| `Database.PopulateDatabase` | database.py:98-102 | A table that already has rows is returned unchanged. Any result keeps the columns. |
| `Database.InsertAllLength` | database.py:119-122 | A successful load adds exactly one row per item. |
| `Database.PopulatedAfterLoad` | database.py:91-124 | After a successful `populate_database`, `is_database_populated` holds exactly when it held before or some item was given. |
| `Database.InsertAllSpec` | database.py:119-124 | Loading words after the entries already held succeeds exactly when all entries together have distinct keywords and distinct abbreviations. The table then holds them all, in input order. |
| `Database.InsertNextWord` | database.py:119-122 | The next item of the load goes in exactly when it shares neither keyword nor abbreviation with the items already loaded. The table then holds those items followed by it. |
| `Database.PopulateEmptyTable` | database.py:98-125 | Populating an empty `words` table succeeds exactly when the items have distinct keywords and abbreviations. The table then reads back as the items, in input order. |
| `Database.InsertAllKeepsInvariant` | database.py:119-122 | A successful load keeps the NOT NULL and UNIQUE guarantees. |
| `Database.CreateTable` | database.py:69-73 | `CREATE TABLE IF NOT EXISTS` keeps an existing table unchanged. Otherwise it makes an empty `words` table that meets its constraints. |
| `Database.SetupKeepsInvariant` | database.py:216-222 | Starting from no table or a `words` table that keeps its constraints, a successful create-then-populate leaves a `words` table that keeps them. |
| `Agents.KeywordLookupTool` | agents.py:21-26 | Returns the "already exists" message exactly when the keyword is stored, and the "is new" message exactly when it is not. It only reads the store. |
| `Agents.AbbreviationLookupTool` | agents.py:29-34 | Returns the "already exists" message exactly when the abbreviation is stored, and the "is unique" message exactly when it is not. It only reads the store. |
| `Agents.KeywordLookupReadBack` | agents.py:24-26 | The keyword tool's message names the keyword asked about. Reading it back gives exactly the store's answer. |
| `Agents.AbbreviationLookupReadBack` | agents.py:32-34 | The abbreviation tool's message names the abbreviation asked about. Reading it back gives exactly the store's answer. |
| `Agents.AvoidNote` | agents.py:47-49 | The note is non-empty if and only if `(avoid:` occurs in the lower-cased keyword. It is either empty or the one fixed warning sentence. |
| `Agents.MarkerInAnyCase` | agents.py:48 | The marker is detected in any letter case (`(AVOID:`, `(Avoid:` ...) wherever it stands in the keyword. |
| `Agents.NoParenthesisNoNote` | agents.py:48 | A keyword without `(` never gets the note. |
| `Agents.AvoidListIgnored` | agents.py:47-49 | Whatever follows the marker, the note is the same fixed sentence: the avoided abbreviations are never read. |
| `Cli.AbbreviationCheck` | main.py:53 | `check_abbreviation_exists(abbr)` for any JSON value: it fails (lands in `except`) exactly when a connection is open and the value cannot be bound (a list, an object, or an integer outside the signed 64-bit range). For a string it is the store's answer. It reports "taken" only with a connection, and then some row holds the value as the TEXT column converts it. |
| `Cli.IntegerAbbreviationIsText` | main.py:53 | An integer abbreviation within 64 bits is looked up as its decimal text. |
| `Cli.BoolAbbreviationIsText` | main.py:53 | A boolean abbreviation is bound as 0 or 1 and looked up as the text `"1"` or `"0"`. |
| `Cli.Propose` | main.py:27-55 | The save question is reached only for a keyword that is not `exit` and not stored, with a JSON-object reply whose truthy `abbreviation` the store does not hold. `exit` and a stored keyword stop the iteration exactly in those cases. |
| `Cli.Admit` | main.py:57-61 | A word goes to `insert_word` only after the user said yes. Its keyword is the typed text unchanged, and that keyword is neither `exit` nor stored. A "not saved" outcome means the answer was not yes. |
| `Cli.Step` | main.py:25-84 | One iteration ends with `Exit` exactly for `exit` and with "keyword taken" exactly for a stored keyword. The store changes only on `Saved`, and then it is the result of `insert_word` on the saved word. That word's keyword is the typed text, the user said yes, and the vector-store result is only recorded. |
| `Cli.ExitLeavesStore` | main.py:27-29 | `exit`, in any case, ends the loop and leaves the store as it was. |
| `Cli.KeywordTakenIgnoresAgent` | main.py:31-33 | A stored keyword ends the iteration before the agent, the answer or the vector store matter. The store is unchanged. |
| `Cli.AgentFailureLeavesStore` | main.py:35-47 | An agent that raises, non-JSON output, or JSON that is not an object all end in the `except` branch with the store unchanged. |
| `Cli.NoAbbreviationLeavesStore` | main.py:46-49 | A reply without a truthy `abbreviation` saves nothing and leaves the store unchanged. |
| `Cli.UnbindableAbbreviationFails` | main.py:53 | With a connection open, a truthy abbreviation that cannot be bound ends in the `except` branch with the store unchanged. |
| `Cli.AbbreviationTakenIgnoresAnswer` | main.py:53-55 | A taken abbreviation ends the iteration before the save question. The answer and the vector store do not matter. |
| `Cli.RefusalLeavesStore` | main.py:58-74 | Any answer other than `yes`/`y`, after strip and lower-casing, saves nothing and leaves the store unchanged. |
| `Cli.ConstructProposed` | main.py:61 | From a usable reply, `Word(keyword=..., abbreviation=..., description=...)` builds exactly the proposed word. |
| `Cli.AdmittedOnlyIfUsable` | main.py:46-61 | A word is admitted only from a usable reply: a JSON object with a non-empty string abbreviation and a string or null description. The word admitted is the one that reply proposes. |
| `Cli.SavedOnlyIfUsable` | main.py:46-64 | A save happens only for a usable reply, and the word saved is the proposed one. |
| `Cli.StepOnUsableReply` | main.py:53-64 | For a new keyword and a usable reply, the iteration saves exactly when the abbreviation is new, the user says yes and `insert_word` succeeds. |
| `Cli.SavedIff` | main.py:25-72 | On the `words` table an iteration saves exactly when the input is not `exit`, a connection is available, the keyword is new, the reply is usable, its abbreviation is new and the user says yes. The table then gains the proposed word's row. |
| `Cli.IndexFailureKeepsInsert` | main.py:64-72 | Whether the vector-store add fails does not change what the database keeps. |
| `Cli.StepKeepsInvariant` | main.py:64 | An iteration keeps the `words` table, its constraints and the connection state. |
| `Cli.Run` | main.py:25-29 | A session has at most one outcome per turn. `Exit` can only be the last outcome, and a session that stops before the turns run out ends with `Exit`. |
| `Cli.RunOutcomeAt` | main.py:25-29 | Outcome `i` of a session is the iteration of turn `i` on the store the earlier turns left. |
| `Cli.RunFinalStore` | main.py:25-29 | A session ends on the store its last iteration left. |
| `Cli.RunOutcomes` | main.py:25-29 | All outcomes and the final store of a session, each as the iteration of its turn on the store before it. |
| `Cli.RunKeepsInvariant` | main.py:25-72 | A session of the program keeps the `words` table, its constraints and the connection state. |
| `Cli.SavedWords` | main.py:64-66 | A word is among the saved words exactly when some outcome of the session saved it. |
| `Cli.RunAppendsSavedWords` | main.py:25-72 | A session only appends. A table holding the words `ws` ends up holding `ws` followed by the saved words, in the order they were saved. |
| `Cli.SessionReadBack` | main.py:25-64 | After a session on an available `words` table, `get_all_words` returns the earlier words followed by the words saved in the session. |
| `Strings.Lower` | main.py:27 | `str.lower()` as far as the compared words need it: same length, every ASCII capital lower-cased, every other character kept. |
| `Strings.Strip` | main.py:58 | `str.strip()`: the result is a slice of the input, everything cut away is whitespace, and the result neither starts nor ends with whitespace. |
| `Strings.ContainsIff` | agents.py:48 | The substring scan finds `p` if and only if `p` occurs at some position of `s`. |
| `Strings.SplitJoin` | database.py:79 | Splitting a space-joined list of non-empty, whitespace-free words gives the words back. |
| `Strings.NaturalDigits` | main.py:53 | The decimal text of a natural number is non-empty and all digits. It starts with `0` only for zero, so there are no leading zeros. |
| `Strings.NaturalDigitsValue` | main.py:53 | Reading the decimal text of `n` back as digits gives `n`. |
| `Strings.DecimalStringInjective` | main.py:53 | Two integers bound as an abbreviation compare as the same text if and only if they are equal. |

## Left out

- Vector store (vectorstore.py, Chroma, Ollama embeddings): I/O through
  foreign libraries. `add_word_to_vectorstore` is reduced to the flag
  `Turn.indexed`.
- The LangChain ReAct agent, the RAG chain and all LLM calls (agents.py:42-44,
  82-90, 99-137): non-deterministic foreign services.
  - The agent's final output is an input of the iteration, given as a decoded
    JSON value.
  - The prompt template of `name_suggestion_tool` (agents.py:51-80), its
    `.format(avoid_note=...)` and the `RunnablePassthrough` wiring
    (agents.py:82-89) are prompt text and LLM plumbing. Only the
    `avoid_note` that is spliced into the template is modelled, by
    `AvoidNote`.
- The retry/avoid procedure and the casing rule (agents.py:57, 108-115):
  prompt text only, never enforced by code.
- Decoding of JSON text: the reply is given already parsed, or as "not JSON".
  JSON numbers are integers; floats are left out.
- SQLite connection, cursor, commit and close mechanics; reading
  `dictionary.json`; `input()`.
- `SELECT * FROM words` (database.py:192) has no `ORDER BY`. The model
  returns rows in insertion order, which is what SQLite's rowid scan gives,
  but SQL does not promise it. `Database.PopulateEmptyTable` and
  `Cli.SessionReadBack` rest on that order.
- Cli.Step: printing with `rich` is left out, including the `MarkupError`
  it raises for console markup such as an unmatched `[/b]` in a printed
  value. Such a reply (main.py:50) raises inside the `try`. The `except` at
  main.py:80-81 then prints the error, whose message repeats the markup,
  and raises again, so the program stops without saving. The model treats
  every printed text as harmless.
- Database.InsertWord: the `print` after the commit (database.py:170) can
  raise the same `MarkupError` for a keyword holding such markup. The row
  is then committed, but `insert_word` does not return `True`. The model
  returns `True`.
- Database.Affinity: only TEXT affinity is modelled. INTEGER, REAL and
  NUMERIC affinity conversions are not, because every column an INSERT of
  this program fills is TEXT.
- The validation of the dictionary items by `Word(**item)` (database.py:109):
  the bulk load takes the validated words. `Models.ConstructWord` models that
  validation on its own.
- The text of the CREATE TABLE statement and its execution (database.py:69-81):
  the model keeps the column list and the resulting table. The `CREATE TABLE`
  error branch is left out.
- `setup_database` without a connection (database.py:224-225): it only
  prints.
- Concurrency: the gap between the abbreviation check and the insert
  (main.py:53 and main.py:64). The UNIQUE constraint, modelled in `Insert`,
  is the only guard.
- Strings.Lower: only ASCII letters are lower-cased, while Python's
  `str.lower()` lowers every cased character. For the three comparisons the
  code makes (`== "exit"`, `in ['yes', 'y']`, `"(avoid:" in`) the outcome is
  the same:
  - the only characters whose Python lower-case holds an ASCII letter are
    U+212A (to `k`, which none of the compared words contains) and U+0130
    (to `i` followed by U+0307);
  - neither can complete a match.
- Database.InsertWord: its own contract states only the failure and
  connection cases. The appended row is stated separately, by
  `Database.InsertWordAppendsOneRow` and `Database.InsertWordSpec`.

=== FILE: agents.dfy ===
/**
 * The deterministic parts of the agent's tools (agents.py): the two
 * lookup tools, which turn an existence check into a fixed message, and
 * the `(avoid:` marker test of the suggestion tool. The LLM calls
 * themselves are not part of this model.
 */
module Agents {
  import opened Wrappers
  import opened Strings
  import opened Database

  const KeywordPrefix: string := "The keyword '"
  const KeywordTaken: string := "' already exists in the database. Please ask the user for a different one."
  const KeywordNew: string := "' is new."

  const AbbreviationPrefix: string := "The abbreviation '"
  const AbbreviationTaken: string := "' already exists. You must generate a new, unique abbreviation."
  const AbbreviationNew: string := "' is unique."

  /** `keyword_lookup_tool`: the "already exists" message exactly when the keyword is stored. */
  function KeywordLookupTool(st: Store, keyword: string): (msg: string)
    ensures msg == KeywordPrefix + keyword + KeywordTaken <==> KeywordExists(st, keyword)
    ensures msg == KeywordPrefix + keyword + KeywordNew <==> !KeywordExists(st, keyword)
  {
    FramesDiffer(KeywordPrefix, keyword, KeywordTaken, KeywordNew);
    if KeywordExists(st, keyword) then KeywordPrefix + keyword + KeywordTaken
    else KeywordPrefix + keyword + KeywordNew
  }

  /** `abbreviation_lookup_tool`: the "already exists" message exactly when the abbreviation is stored. */
  function AbbreviationLookupTool(st: Store, abbreviation: string): (msg: string)
    ensures msg == AbbreviationPrefix + abbreviation + AbbreviationTaken <==> AbbreviationExists(st, abbreviation)
    ensures msg == AbbreviationPrefix + abbreviation + AbbreviationNew <==> !AbbreviationExists(st, abbreviation)
  {
    FramesDiffer(AbbreviationPrefix, abbreviation, AbbreviationTaken, AbbreviationNew);
    if AbbreviationExists(st, abbreviation) then AbbreviationPrefix + abbreviation + AbbreviationTaken
    else AbbreviationPrefix + abbreviation + AbbreviationNew
  }

  /** The text between `prefix` and `suffix`, when `msg` starts with the one and ends with the other. */
  function Unframe(msg: string, prefix: string, suffix: string): Option<string> {
    if |prefix| + |suffix| <= |msg| && msg[..|prefix|] == prefix && msg[|msg| - |suffix|..] == suffix
    then Some(msg[|prefix|..|msg| - |suffix|])
    else None
  }

  lemma UnframeFrame(prefix: string, x: string, suffix: string)
    ensures Unframe(prefix + x + suffix, prefix, suffix) == Some(x)
  {
    var msg := prefix + x + suffix;
    assert msg[..|prefix|] == prefix;
    assert msg[|msg| - |suffix|..] == suffix;
    assert msg[|prefix|..|msg| - |suffix|] == x;
  }

  /** Two suffixes whose next-to-last characters differ never end the same message. */
  lemma UnframeOtherSuffix(prefix: string, x: string, suffix: string, other: string)
    requires |suffix| >= 2 && |other| >= 2 && suffix[|suffix| - 2] != other[|other| - 2]
    ensures Unframe(prefix + x + suffix, prefix, other) == None
  {
    var msg := prefix + x + suffix;
    assert msg[|msg| - 2] == suffix[|suffix| - 2];
    if |prefix| + |other| <= |msg| {
      assert msg[|msg| - |other|..][|other| - 2] == msg[|msg| - 2];
    }
  }

  lemma FramesDiffer(prefix: string, x: string, suffix: string, other: string)
    requires |suffix| >= 2 && |other| >= 2 && suffix[|suffix| - 2] != other[|other| - 2]
    ensures prefix + x + suffix != prefix + x + other
  {
    UnframeFrame(prefix, x, other);
    UnframeOtherSuffix(prefix, x, suffix, other);
  }

  /**
   * How the agent reads a lookup message: the value it names, and whether
   * it reports the value as taken.
   */
  function ReadLookupMessage(msg: string, prefix: string, taken: string, notTaken: string): Option<(string, bool)> {
    match Unframe(msg, prefix, taken)
    case Some(x) => Some((x, true))
    case None =>
      match Unframe(msg, prefix, notTaken)
      case Some(x) => Some((x, false))
      case None => None
  }

  /** The keyword tool's message names the keyword asked about and reports exactly the store's answer. */
  lemma KeywordLookupReadBack(st: Store, keyword: string)
    ensures ReadLookupMessage(KeywordLookupTool(st, keyword), KeywordPrefix, KeywordTaken, KeywordNew)
              == Some((keyword, KeywordExists(st, keyword)))
  {
    UnframeFrame(KeywordPrefix, keyword, KeywordTaken);
    UnframeFrame(KeywordPrefix, keyword, KeywordNew);
    UnframeOtherSuffix(KeywordPrefix, keyword, KeywordNew, KeywordTaken);
  }

  /** The abbreviation tool's message names the abbreviation asked about and reports exactly the store's answer. */
  lemma AbbreviationLookupReadBack(st: Store, abbreviation: string)
    ensures ReadLookupMessage(AbbreviationLookupTool(st, abbreviation), AbbreviationPrefix, AbbreviationTaken, AbbreviationNew)
              == Some((abbreviation, AbbreviationExists(st, abbreviation)))
  {
    UnframeFrame(AbbreviationPrefix, abbreviation, AbbreviationTaken);
    UnframeFrame(AbbreviationPrefix, abbreviation, AbbreviationNew);
    UnframeOtherSuffix(AbbreviationPrefix, abbreviation, AbbreviationNew, AbbreviationTaken);
  }

  const AvoidMarker: string := "(avoid:"
  const AvoidSentence: string := "\n\nIMPORTANT: Some abbreviations are already taken and must NOT be used. Generate a DIFFERENT abbreviation."

  /**
   * The `avoid_note` of `name_suggestion_tool`: the fixed warning sentence
   * exactly when the lower-cased keyword contains `(avoid:`, else empty.
   */
  function AvoidNote(keyword: string): (note: string)
    ensures note != "" <==> exists i :: OccursAt(Lower(keyword), AvoidMarker, i)
    ensures note == "" || note == AvoidSentence
  {
    ContainsIff(Lower(keyword), AvoidMarker);
    if Contains(Lower(keyword), AvoidMarker) then
      assert exists i :: OccursAt(Lower(keyword), AvoidMarker, i);
      AvoidSentence
    else ""
  }

  lemma LowerMarker()
    ensures Lower(AvoidMarker) == AvoidMarker
  {
  }

  /** The marker is found whatever its letter case and wherever it stands in the keyword. */
  lemma MarkerInAnyCase(before: string, marker: string, after: string)
    requires Lower(marker) == AvoidMarker
    ensures AvoidNote(before + marker + after) == AvoidSentence
  {
    var k := before + marker + after;
    LowerAppend(before, marker);
    LowerAppend(before + marker, after);
    var l := Lower(k);
    assert l == Lower(before) + AvoidMarker + Lower(after);
    assert l[|before|..|before| + |AvoidMarker|] == AvoidMarker;
    assert OccursAt(l, AvoidMarker, |before|);
  }

  /** A keyword without `(` never gets the note: lower-casing leaves `(` where it was. */
  lemma NoParenthesisNoNote(keyword: string)
    requires '(' !in keyword
    ensures AvoidNote(keyword) == ""
  {
    var l := Lower(keyword);
    forall i | 0 <= i && i + |AvoidMarker| <= |l|
      ensures !OccursAt(l, AvoidMarker, i)
    {
      assert keyword[i] in keyword;
      assert l[i] != '(';
      assert l[i..i + |AvoidMarker|][0] == l[i];
    }
  }

  /**
   * The avoided abbreviations are never read: whatever follows the marker,
   * the same fixed sentence is spliced into the prompt.
   */
  lemma AvoidListIgnored(base: string, list1: string, list2: string)
    ensures AvoidNote(base + AvoidMarker + list1) == AvoidSentence
    ensures AvoidNote(base + AvoidMarker + list1) == AvoidNote(base + AvoidMarker + list2)
  {
    LowerMarker();
    MarkerInAnyCase(base, AvoidMarker, list1);
    MarkerInAnyCase(base, AvoidMarker, list2);
  }
}

=== FILE: cli.dfy ===
/**
 * The interactive loop of main.py: one iteration decides, from the typed
 * keyword, the agent's reply and the user's confirmation, whether a new
 * word is admitted to the store; a session is those iterations in turn
 * until the user types `exit`.
 */
module Cli {
  import opened Wrappers
  import opened Strings
  import opened Models
  import opened Database

  /** A value produced by `json.loads`. Numbers are integers here. */
  datatype Json =
    | JNull
    | JBool(b: bool)
    | JNumber(n: int)
    | JString(s: string)
    | JArray(items: seq<Json>)
    | JObject(members: map<string, Json>)

  /**
   * What the agent step yields: the agent raised (Ollama unreachable, no
   * final answer, ...), its output is not JSON, or the decoded output.
   */
  datatype AgentReply = AgentRaised | NotJson | Parsed(json: Json)

  /**
   * The inputs of one iteration: the typed keyword, the agent's reply,
   * the answer to the save question (read only when it is asked), and
   * whether adding to the vector store succeeds.
   */
  datatype Turn = Turn(typed: string, reply: AgentReply, answer: string, indexed: bool)

  /** How one iteration ends. `Failed` is the loop's catch-all `except` branch. */
  datatype Outcome =
    | Exit
    | KeywordTaken
    | Failed
    | NoAbbreviation
    | AbbreviationTaken
    | NotSaved
    | InsertFailed
    | Saved(word: Word, indexed: bool)

  /** Python truthiness of a decoded JSON value. */
  predicate Truthy(j: Json) {
    match j
    case JNull => false
    case JBool(b) => b
    case JNumber(n) => n != 0
    case JString(s) => s != ""
    case JArray(items) => items != []
    case JObject(members) => members != map[]
  }

  /** `output_json.get(key)`: `None` for a missing key. */
  function Member(members: map<string, Json>, key: string): Json {
    if key in members then members[key] else JNull
  }

  /** The Python value a decoded JSON value is. */
  function ToPy(j: Json): PyValue {
    match j
    case JNull => PyNone
    case JBool(b) => PyBool(b)
    case JNumber(n) => PyInt(n)
    case JString(s) => PyStr(s)
    case _ => PyOther
  }

  /**
   * `check_abbreviation_exists(abbr)` for whatever the agent put there. The
   * value is bound as `sqlite3` binds it and compared as the TEXT column
   * `abbreviation` converts it, so integers and booleans compare as their
   * decimal text. Binding raises for lists, dicts and integers outside the
   * signed 64-bit range, which only happens once a connection is open:
   * then the result is `None`.
   */
  function AbbreviationCheck(st: Store, abbr: Json): (r: Option<bool>)
    ensures r.None? <==> st.available && Bind(ToPy(abbr)).None?
    ensures abbr.JString? ==> r == Some(AbbreviationExists(st, abbr.s))
    ensures r == Some(true) ==> && st.available && Bind(ToPy(abbr)).Some?
                                && exists i :: 0 <= i < |st.table.rows| &&
                                     Cell(st.table.rows[i], "abbreviation") == Affinity("TEXT", Bind(ToPy(abbr)).value)
  {
    if !st.available then Some(false)
    else match Bind(ToPy(abbr))
      case None => None
      case Some(v) => Some(AnyRowHas(st.table.rows, "abbreviation", Affinity("TEXT", v)))
  }

  /** An integer abbreviation within 64 bits is looked up as its decimal text. */
  lemma IntegerAbbreviationIsText(st: Store, n: int)
    requires st.available && MinInt64 <= n <= MaxInt64
    ensures AbbreviationCheck(st, JNumber(n)) == Some(AbbreviationExists(st, DecimalString(n)))
  {
  }

  /** A boolean abbreviation is bound as 0 or 1 and looked up as that digit. */
  lemma BoolAbbreviationIsText(st: Store, b: bool)
    requires st.available
    ensures AbbreviationCheck(st, JBool(b)) == Some(AbbreviationExists(st, if b then "1" else "0"))
  {
  }

  /** `user_keyword.lower() == "exit"`: no stripping, any letter case. */
  predicate IsExitCommand(typed: string) {
    Lower(typed) == "exit"
  }

  /** `save_choice in ['yes', 'y']` with `save_choice = answer.strip().lower()`. */
  predicate IsYes(answer: string) {
    var a := Lower(Strip(answer));
    a == "yes" || a == "y"
  }

  /** The keyword arguments of `Word(keyword=..., abbreviation=abbr, description=desc)`. */
  function WordArguments(typed: string, abbr: Json, desc: Json): map<string, PyValue> {
    map["keyword" := PyStr(typed), "abbreviation" := ToPy(abbr), "description" := ToPy(desc)]
  }

  /**
   * The agent's answer, when it is a JSON object whose `abbreviation` is a
   * non-empty string and whose `description` is a string or absent/null:
   * the only replies from which a word can be built.
   */
  predicate UsableReply(reply: AgentReply) {
    && reply.Parsed?
    && reply.json.JObject?
    && Member(reply.json.members, "abbreviation").JString?
    && Member(reply.json.members, "abbreviation").s != ""
    && (Member(reply.json.members, "description").JNull? || Member(reply.json.members, "description").JString?)
  }

  /** The word a usable reply proposes for the typed keyword. */
  function ProposedWord(typed: string, reply: AgentReply): Word
    requires UsableReply(reply)
  {
    var desc := Member(reply.json.members, "description");
    Word(typed, Member(reply.json.members, "abbreviation").s, if desc.JString? then Some(desc.s) else None)
  }

  /**
   * How far an iteration gets before the save question: a final outcome,
   * or the abbreviation and description to offer the user.
   */
  datatype Proposal = Stop(outcome: Outcome) | Ask(abbr: Json, desc: Json)

  /**
   * The loop body up to the save question. It only reads the store; the
   * user is asked only about a new keyword whose reply names an
   * abbreviation the store does not hold.
   */
  function Propose(st: Store, typed: string, reply: AgentReply): (p: Proposal)
    ensures p == Stop(Exit) <==> IsExitCommand(typed)
    ensures p == Stop(KeywordTaken) <==> !IsExitCommand(typed) && KeywordExists(st, typed)
    ensures p.Stop? ==> p.outcome in {Exit, KeywordTaken, Failed, NoAbbreviation, AbbreviationTaken}
    ensures p.Ask? ==> && !IsExitCommand(typed)
                       && !KeywordExists(st, typed)
                       && reply.Parsed? && reply.json.JObject?
                       && p.abbr == Member(reply.json.members, "abbreviation")
                       && p.desc == Member(reply.json.members, "description")
                       && Truthy(p.abbr)
                       && AbbreviationCheck(st, p.abbr) == Some(false)
  {
    if IsExitCommand(typed) then Stop(Exit)
    else if KeywordExists(st, typed) then Stop(KeywordTaken)
    else
      match reply
      case AgentRaised => Stop(Failed)
      case NotJson => Stop(Failed)
      case Parsed(j) =>
        if !j.JObject? then Stop(Failed)
        else
          var abbr := Member(j.members, "abbreviation");
          if !Truthy(abbr) then Stop(NoAbbreviation)
          else
            match AbbreviationCheck(st, abbr)
            case None => Stop(Failed)
            case Some(true) => Stop(AbbreviationTaken)
            case Some(false) => Ask(abbr, Member(j.members, "description"))
  }

  /** The decision an iteration reaches before it touches the store: a final outcome, or a word to insert. */
  datatype Admission = Rejected(outcome: Outcome) | Admitted(word: Word)

  /**
   * The loop body up to `insert_word`: the save question and the
   * construction of the word. A word is admitted only after the user said
   * yes, and its keyword is the typed text, unchanged.
   */
  function Admit(st: Store, typed: string, reply: AgentReply, answer: string): (a: Admission)
    ensures a == Rejected(Exit) <==> IsExitCommand(typed)
    ensures a == Rejected(KeywordTaken) <==> !IsExitCommand(typed) && KeywordExists(st, typed)
    ensures a.Rejected? ==> !a.outcome.Saved? && a.outcome != InsertFailed
    ensures a == Rejected(NotSaved) ==> !IsYes(answer)
    ensures a.Admitted? ==> && a.word.keyword == typed
                            && !IsExitCommand(typed)
                            && !KeywordExists(st, typed)
                            && IsYes(answer)
  {
    match Propose(st, typed, reply)
    case Stop(o) => Rejected(o)
    case Ask(abbr, desc) =>
      if !IsYes(answer) then Rejected(NotSaved)
      else
        match ConstructWord(WordArguments(typed, abbr, desc))
        case Failure(_) => Rejected(Failed)
        case Success(w) => Admitted(w)
  }

  /**
   * One pass of the `while True` body. The store changes only when the
   * outcome is `Saved`, and then by the `insert_word` of the saved word,
   * whose keyword is the typed text exactly as typed; the vector store is
   * reached only after that insert succeeded.
   */
  function Step(st: Store, t: Turn): (r: (Outcome, Store))
    ensures r.0 == Exit <==> IsExitCommand(t.typed)
    ensures r.0 == KeywordTaken <==> !IsExitCommand(t.typed) && KeywordExists(st, t.typed)
    ensures !r.0.Saved? ==> r.1 == st
    ensures r.0.Saved? ==> && r.0.word.keyword == t.typed
                           && r.0.indexed == t.indexed
                           && InsertWord(st, r.0.word) == (true, r.1)
                           && IsYes(t.answer)
    ensures r.0 == NotSaved ==> !IsYes(t.answer)
  {
    match Admit(st, t.typed, t.reply, t.answer)
    case Rejected(o) => (o, st)
    case Admitted(w) =>
      var (ok, st1) := InsertWord(st, w);
      if ok then (Saved(w, t.indexed), st1) else (InsertFailed, st)
  }

  /** `exit`, in any letter case, ends the loop without touching the store. */
  lemma ExitLeavesStore(st: Store, t: Turn)
    requires IsExitCommand(t.typed)
    ensures Step(st, t) == (Exit, st)
  {
  }

  /**
   * An agent that raises, output that is not JSON, or JSON that is not an
   * object (whose `.get` raises) all land in the loop's `except` branch
   * and leave the store as it was.
   */
  lemma AgentFailureLeavesStore(st: Store, t: Turn)
    requires !IsExitCommand(t.typed) && !KeywordExists(st, t.typed)
    requires t.reply.AgentRaised? || t.reply.NotJson? || (t.reply.Parsed? && !t.reply.json.JObject?)
    ensures Step(st, t) == (Failed, st)
  {
  }

  /** A reply without a truthy `abbreviation` saves nothing. */
  lemma NoAbbreviationLeavesStore(st: Store, t: Turn)
    requires !IsExitCommand(t.typed) && !KeywordExists(st, t.typed)
    requires t.reply.Parsed? && t.reply.json.JObject? && !Truthy(Member(t.reply.json.members, "abbreviation"))
    ensures Step(st, t) == (NoAbbreviation, st)
  {
  }

  /**
   * A truthy abbreviation that cannot be bound (a list, a dict, an integer
   * outside the signed 64-bit range) makes the existence check raise once
   * a connection is open: the `except` branch, with the store unchanged.
   */
  lemma UnbindableAbbreviationFails(st: Store, t: Turn)
    requires st.available && !IsExitCommand(t.typed) && !KeywordExists(st, t.typed)
    requires t.reply.Parsed? && t.reply.json.JObject?
    requires Truthy(Member(t.reply.json.members, "abbreviation"))
    requires Bind(ToPy(Member(t.reply.json.members, "abbreviation"))).None?
    ensures Step(st, t) == (Failed, st)
  {
  }

  /** Any answer other than `yes` or `y` (after strip and lower-casing) leaves the store as it was. */
  lemma RefusalLeavesStore(st: Store, t: Turn)
    requires !IsYes(t.answer)
    ensures !Step(st, t).0.Saved? && Step(st, t).1 == st
  {
  }

  /** A stored keyword ends the iteration before the agent, the answer or the vector store matter. */
  lemma KeywordTakenIgnoresAgent(st: Store, t: Turn, reply: AgentReply, answer: string, indexed: bool)
    requires !IsExitCommand(t.typed) && KeywordExists(st, t.typed)
    ensures Step(st, t) == (KeywordTaken, st)
    ensures Step(st, Turn(t.typed, reply, answer, indexed)) == Step(st, t)
  {
  }

  /** A taken abbreviation ends the iteration before the save question is asked. */
  lemma AbbreviationTakenIgnoresAnswer(st: Store, t: Turn, answer: string, indexed: bool)
    requires Step(st, t).0 == AbbreviationTaken
    ensures Step(st, t.(answer := answer, indexed := indexed)) == Step(st, t)
  {
    assert Propose(st, t.typed, t.reply) == Stop(AbbreviationTaken);
  }

  /** Whether the vector-store add succeeds does not change what the database keeps. */
  lemma IndexFailureKeepsInsert(st: Store, t: Turn)
    requires Step(st, t).0.Saved?
    ensures Step(st, t.(indexed := !t.indexed)).0.Saved?
    ensures Step(st, t.(indexed := !t.indexed)).1 == Step(st, t).1
  {
  }

  /** A usable reply builds exactly the proposed word. */
  lemma ConstructProposed(typed: string, reply: AgentReply)
    requires UsableReply(reply)
    ensures var m := reply.json.members;
            ConstructWord(WordArguments(typed, Member(m, "abbreviation"), Member(m, "description"))) == Success(ProposedWord(typed, reply))
  {
  }

  /** Only a usable reply can lead to an admitted word, and the word admitted is the proposed one. */
  lemma AdmittedOnlyIfUsable(st: Store, typed: string, reply: AgentReply, answer: string)
    requires Admit(st, typed, reply, answer).Admitted?
    ensures UsableReply(reply)
    ensures Admit(st, typed, reply, answer).word == ProposedWord(typed, reply)
  {
    var p := Propose(st, typed, reply);
    var w := Admit(st, typed, reply, answer).word;
    assert ConstructWord(WordArguments(typed, p.abbr, p.desc)) == Success(w);
    assert ToPy(p.abbr).PyStr? && (ToPy(p.desc).PyNone? || ToPy(p.desc).PyStr?);
    ConstructProposed(typed, reply);
  }

  /** Only a usable reply can lead to a save, and the word saved is the proposed one. */
  lemma SavedOnlyIfUsable(st: Store, t: Turn)
    requires Step(st, t).0.Saved?
    ensures UsableReply(t.reply)
    ensures Step(st, t).0.word == ProposedWord(t.typed, t.reply)
  {
    AdmittedOnlyIfUsable(st, t.typed, t.reply, t.answer);
  }

  /** With a new keyword and a usable reply, the iteration saves exactly when the abbreviation is new, the user says yes and the insert succeeds. */
  lemma StepOnUsableReply(st: Store, t: Turn)
    requires !IsExitCommand(t.typed) && !KeywordExists(st, t.typed) && UsableReply(t.reply)
    ensures Step(st, t).0.Saved? <==>
              !AbbreviationExists(st, ProposedWord(t.typed, t.reply).abbreviation) && IsYes(t.answer)
              && InsertWord(st, ProposedWord(t.typed, t.reply)).0
  {
    ConstructProposed(t.typed, t.reply);
  }

  /**
   * On the words table an iteration saves a word exactly when the input is
   * not `exit`, a connection is available, the keyword is new, the agent's
   * reply is usable, its abbreviation is new and the user says yes; the
   * word saved is the proposed one and the table gains its row.
   */
  lemma SavedIff(st: Store, t: Turn)
    requires IsWordTable(st.table)
    ensures Step(st, t).0.Saved? <==>
              && !IsExitCommand(t.typed)
              && st.available
              && !KeywordExists(st, t.typed)
              && UsableReply(t.reply)
              && !AbbreviationExists(st, ProposedWord(t.typed, t.reply).abbreviation)
              && IsYes(t.answer)
    ensures Step(st, t).0.Saved? ==>
              && Step(st, t).0.word == ProposedWord(t.typed, t.reply)
              && Step(st, t).1.table.rows == st.table.rows + [WordRow(st.table.nextId, ProposedWord(t.typed, t.reply))]
  {
    if Step(st, t).0.Saved? {
      SavedOnlyIfUsable(st, t);
    }
    if !IsExitCommand(t.typed) && !KeywordExists(st, t.typed) && UsableReply(t.reply) {
      InsertWordSpec(st, ProposedWord(t.typed, t.reply));
      StepOnUsableReply(st, t);
    }
  }

  /** An iteration keeps the store a words table that meets its constraints, and keeps the connection state. */
  lemma StepKeepsInvariant(st: Store, t: Turn)
    requires IsWordTable(st.table) && Invariant(st.table)
    ensures IsWordTable(Step(st, t).1.table) && Invariant(Step(st, t).1.table)
    ensures Step(st, t).1.available == st.available
  {
    if Step(st, t).0.Saved? {
      InsertWordKeepsInvariant(st, Step(st, t).0.word);
    }
  }

  /** A loop body: one iteration from a store and a turn to an outcome and the store it leaves. */
  type Body = (Store, Turn) -> (Outcome, Store)

  /**
   * A session: the iterations of `body` in order until the first `Exit`;
   * the turns after it are never read. The program's own session is
   * `Run(Step, st, turns)`.
   */
  function Run(body: Body, st: Store, turns: seq<Turn>): (r: (seq<Outcome>, Store))
    ensures |r.0| <= |turns|
    ensures forall i :: 0 <= i < |r.0| - 1 ==> r.0[i] != Exit
    ensures |r.0| < |turns| ==> |r.0| > 0 && r.0[|r.0| - 1] == Exit
    decreases |turns|
  {
    if |turns| == 0 then ([], st)
    else
      var (o, st1) := body(st, turns[0]);
      if o == Exit then ([Exit], st1)
      else
        var (os, st2) := Run(body, st1, turns[1..]);
        ([o] + os, st2)
  }

  /** The store before turn `i`, when the session gets that far. */
  function SessionStore(body: Body, st: Store, turns: seq<Turn>, i: nat): Store
    decreases i
  {
    if i == 0 || |turns| == 0 then st else SessionStore(body, body(st, turns[0]).1, turns[1..], i - 1)
  }

  /** An `exit` turn ends the session on the store it was typed in. */
  lemma RunExit(body: Body, st: Store, turns: seq<Turn>)
    requires |turns| > 0 && body(st, turns[0]).0 == Exit
    ensures Run(body, st, turns) == ([Exit], body(st, turns[0]).1)
  {
  }

  /** A turn that is not `exit` is followed by the rest of the session on the store it left. */
  lemma RunCons(body: Body, st: Store, turns: seq<Turn>)
    requires |turns| > 0 && body(st, turns[0]).0 != Exit
    ensures Run(body, st, turns).0 == [body(st, turns[0]).0] + Run(body, body(st, turns[0]).1, turns[1..]).0
    ensures Run(body, st, turns).1 == Run(body, body(st, turns[0]).1, turns[1..]).1
  {
  }

  /** Outcome `i` of a session is the iteration of turn `i` on the store the earlier turns left. */
  lemma {:induction false} RunOutcomeAt(body: Body, st: Store, turns: seq<Turn>, i: nat)
    requires i < |Run(body, st, turns).0|
    ensures Run(body, st, turns).0[i] == body(SessionStore(body, st, turns, i), turns[i]).0
    decreases i
  {
    if i > 0 {
      RunCons(body, st, turns);
      RunOutcomeAt(body, body(st, turns[0]).1, turns[1..], i - 1);
    }
  }

  /** A session ends on the store its last turn left. */
  lemma {:induction false} RunFinalStore(body: Body, st: Store, turns: seq<Turn>)
    ensures Run(body, st, turns).1 == SessionStore(body, st, turns, |Run(body, st, turns).0|)
    decreases |turns|
  {
    if |turns| > 0 {
      if body(st, turns[0]).0 == Exit {
        RunExit(body, st, turns);
      } else {
        RunCons(body, st, turns);
        RunFinalStore(body, body(st, turns[0]).1, turns[1..]);
      }
    }
  }

  /**
   * Each outcome of a session is the iteration of its turn on the store
   * the earlier turns left, and the session ends on the store its last
   * turn left.
   */
  lemma RunOutcomes(body: Body, st: Store, turns: seq<Turn>)
    ensures forall i :: 0 <= i < |Run(body, st, turns).0| ==>
              Run(body, st, turns).0[i] == body(SessionStore(body, st, turns, i), turns[i]).0
    ensures Run(body, st, turns).1 == SessionStore(body, st, turns, |Run(body, st, turns).0|)
  {
    forall i | 0 <= i < |Run(body, st, turns).0|
      ensures Run(body, st, turns).0[i] == body(SessionStore(body, st, turns, i), turns[i]).0
    {
      RunOutcomeAt(body, st, turns, i);
    }
    RunFinalStore(body, st, turns);
  }

  /** The words of the `Saved` outcomes, in order. */
  function SavedWords(outs: seq<Outcome>): (ws: seq<Word>)
    ensures forall w :: w in ws <==> exists i :: 0 <= i < |outs| && outs[i].Saved? && outs[i].word == w
  {
    if |outs| == 0 then []
    else if outs[0].Saved? then [outs[0].word] + SavedWords(outs[1..])
    else SavedWords(outs[1..])
  }

  lemma SavedWordsCons(o: Outcome, os: seq<Outcome>)
    ensures SavedWords([o] + os) == SavedWords([o]) + SavedWords(os)
  {
    assert ([o] + os)[1..] == os;
    assert [o][1..] == [];
  }

  lemma SavedWordsAfter(ws: seq<Word>, o: Outcome, os: seq<Outcome>)
    ensures ws + SavedWords([o] + os) == (ws + SavedWords([o])) + SavedWords(os)
  {
    SavedWordsCons(o, os);
  }

  /** A session of the program keeps the words table and its constraints, and the connection state. */
  lemma {:induction false} RunKeepsInvariant(st: Store, turns: seq<Turn>)
    requires IsWordTable(st.table) && Invariant(st.table)
    ensures IsWordTable(Run(Step, st, turns).1.table) && Invariant(Run(Step, st, turns).1.table)
    ensures Run(Step, st, turns).1.available == st.available
    decreases |turns|
  {
    if |turns| > 0 {
      StepKeepsInvariant(st, turns[0]);
      if Step(st, turns[0]).0 == Exit {
        RunExit(Step, st, turns);
      } else {
        RunCons(Step, st, turns);
        RunKeepsInvariant(Step(st, turns[0]).1, turns[1..]);
      }
    }
  }

  /** One iteration on a table that holds `ws` leaves it holding `ws` plus the word it saved, if any. */
  lemma StepAppendsSavedWord(st: Store, t: Turn, ws: seq<Word>)
    requires IsWordTable(st.table) && RowsHold(st.table.rows, ws)
    ensures IsWordTable(Step(st, t).1.table)
    ensures RowsHold(Step(st, t).1.table.rows, ws + SavedWords([Step(st, t).0]))
  {
    var o := Step(st, t).0;
    SavedWordsOne(o);
    if o.Saved? {
      InsertWordSpec(st, o.word);
      RowsHoldAppend(st.table.rows, ws, st.table.nextId, o.word);
    } else {
      assert ws + [] == ws;
    }
  }

  lemma SavedWordsOne(o: Outcome)
    ensures SavedWords([o]) == if o.Saved? then [o.word] else []
  {
    assert [o][1..] == [];
  }

  /**
   * A session of the program only appends: a table that holds the words
   * `ws` ends up holding `ws` followed by the words the session saved, in
   * the order they were saved.
   */
  lemma {:induction false} RunAppendsSavedWords(st: Store, turns: seq<Turn>, ws: seq<Word>)
    requires IsWordTable(st.table) && RowsHold(st.table.rows, ws)
    ensures IsWordTable(Run(Step, st, turns).1.table)
    ensures RowsHold(Run(Step, st, turns).1.table.rows, ws + SavedWords(Run(Step, st, turns).0))
    decreases |turns|, 1
  {
    if |turns| == 0 {
      assert ws + [] == ws;
    } else if Step(st, turns[0]).0 == Exit {
      RunExitAppends(st, turns, ws);
    } else {
      RunStepAppends(st, turns, ws);
    }
  }

  lemma RunExitAppends(st: Store, turns: seq<Turn>, ws: seq<Word>)
    requires IsWordTable(st.table) && RowsHold(st.table.rows, ws)
    requires |turns| > 0 && Step(st, turns[0]).0 == Exit
    ensures IsWordTable(Run(Step, st, turns).1.table)
    ensures RowsHold(Run(Step, st, turns).1.table.rows, ws + SavedWords(Run(Step, st, turns).0))
  {
    RunExit(Step, st, turns);
    assert SavedWords([Exit]) == [];
    assert ws + [] == ws;
  }

  lemma {:induction false} RunStepAppends(st: Store, turns: seq<Turn>, ws: seq<Word>)
    requires IsWordTable(st.table) && RowsHold(st.table.rows, ws)
    requires |turns| > 0 && Step(st, turns[0]).0 != Exit
    ensures IsWordTable(Run(Step, st, turns).1.table)
    ensures RowsHold(Run(Step, st, turns).1.table.rows, ws + SavedWords(Run(Step, st, turns).0))
    decreases |turns|, 0
  {
    var o := Step(st, turns[0]).0;
    StepAppendsSavedWord(st, turns[0], ws);
    RunAppendsSavedWords(Step(st, turns[0]).1, turns[1..], ws + SavedWords([o]));
    RunCons(Step, st, turns);
    SavedWordsAfter(ws, o, Run(Step, Step(st, turns[0]).1, turns[1..]).0);
  }

  /**
   * After a session of the program on an available words table,
   * `get_all_words` returns the words it held before followed by the
   * words saved in the session.
   */
  lemma SessionReadBack(st: Store, turns: seq<Turn>, ws: seq<Word>)
    requires st.available && IsWordTable(st.table) && Invariant(st.table) && RowsHold(st.table.rows, ws)
    ensures GetAllWords(Run(Step, st, turns).1) == Success(ws + SavedWords(Run(Step, st, turns).0))
  {
    RunKeepsInvariant(st, turns);
    RunAppendsSavedWords(st, turns, ws);
    WordsOfRowsHeld(Run(Step, st, turns).1.table.rows, ws + SavedWords(Run(Step, st, turns).0));
  }
}

=== FILE: database.dfy ===
/**
 * The dictionary store (database.py): the SQLite schema derived from the
 * `Word` model, the `words` table with its NOT NULL and UNIQUE
 * constraints, the exact-match existence checks, the single-row insert,
 * the skip-if-populated bulk load and the read-back of all entries.
 *
 * Each public function of database.py opens its own connection and
 * returns a fail-safe value when `create_connection` gives `None`; the
 * `available` flag of a `Store` stands for that connection succeeding.
 */
module Database {
  import opened Wrappers
  import opened Strings
  import opened Models

  // ---------------------------------------------------------------------
  // Schema derivation: get_sql_type, create_table_from_model, get_field_names
  // ---------------------------------------------------------------------

  /**
   * The annotation `get_sql_type` looks up in its table: the first type
   * argument when the annotation has an origin and arguments, otherwise
   * the annotation itself.
   */
  function LookedUp(a: Annotation): Annotation {
    if a.Generic? && |a.args| > 0 then a.args[0] else a
  }

  /** The Python-type-to-SQLite-type dictionary of `get_sql_type`. */
  const TypeMapping: map<Annotation, string> :=
    map[Str := "TEXT", Int := "INTEGER", Float := "REAL", Bool := "INTEGER", Bytes := "BLOB"]

  /** `get_sql_type`: the SQLite column type for an annotation, TEXT by default. */
  function GetSqlType(a: Annotation): (r: string)
    ensures LookedUp(a) == Str ==> r == "TEXT"
    ensures r == "INTEGER" <==> LookedUp(a) == Int || LookedUp(a) == Bool
    ensures r == "REAL" <==> LookedUp(a) == Float
    ensures r == "BLOB" <==> LookedUp(a) == Bytes
    ensures r == "TEXT" <==> !(LookedUp(a) in {Int, Bool, Float, Bytes})
  {
    var t := LookedUp(a);
    if t in TypeMapping then TypeMapping[t] else "TEXT"
  }

  /**
   * A generic annotation with arguments gets the type of its first
   * argument; that argument is looked up as it is, so a generic inside a
   * generic (`Optional[List[int]]`) falls back to TEXT.
   */
  lemma SqlTypeOfGeneric(args: seq<Annotation>)
    requires |args| > 0
    ensures GetSqlType(Generic(args)) == if args[0].Generic? then "TEXT" else GetSqlType(args[0])
  {
  }

  /** `Optional[X]` has the SQL type of `X`; in particular `Optional[str]` is TEXT. */
  lemma SqlTypeOfOptional(x: Annotation)
    requires !x.Generic?
    ensures GetSqlType(Generic([x, NoneType])) == GetSqlType(x)
    ensures GetSqlType(Generic([Str, NoneType])) == "TEXT"
  {
  }

  /** One column of the `words` table besides `id`. */
  datatype Column = Column(name: string, sqlType: string, notNull: bool, unique: bool)

  const IdColumnDefinition: string := "id" + IdConstraints
  const IdConstraints: string := " INTEGER PRIMARY KEY AUTOINCREMENT"

  /** The field names `create_table_from_model` marks UNIQUE. */
  const UniqueFieldNames: seq<string> := ["keyword", "abbreviation"]

  /**
   * The column a model field becomes. `create_table_from_model` takes a field to be
   * optional when its annotation has any origin, so every generic
   * annotation goes without NOT NULL.
   */
  function ColumnFor(f: ModelField): Column {
    Column(f.name, GetSqlType(f.annotation), !f.annotation.Generic?, f.name in UniqueFieldNames)
  }

  /** The column definition text: name, type, then " NOT NULL" and " UNIQUE" when they apply. */
  function ColumnDefinition(c: Column): string {
    c.name + " " + c.sqlType + ConstraintText(c)
  }

  function ConstraintText(c: Column): string {
    (if c.notNull then " NOT NULL" else "") + (if c.unique then " UNIQUE" else "")
  }

  function ModelColumns(fields: seq<ModelField>): (cs: seq<Column>)
    ensures |cs| == |fields|
    ensures forall i :: 0 <= i < |fields| ==> cs[i] == ColumnFor(fields[i])
  {
    seq(|fields|, i requires 0 <= i < |fields| => ColumnFor(fields[i]))
  }

  /** The `columns` list that `create_table_from_model` joins into its CREATE TABLE statement. */
  function CreateTableColumns(fields: seq<ModelField>): seq<string> {
    [IdColumnDefinition] + seq(|fields|, i requires 0 <= i < |fields| => ColumnDefinition(ColumnFor(fields[i])))
  }

  /** `get_field_names()`: the model's field names in declaration order. */
  function FieldNames(fields: seq<ModelField>): (names: seq<string>)
    ensures |names| == |fields|
    ensures forall i :: 0 <= i < |fields| ==> names[i] == fields[i].name
  {
    seq(|fields|, i requires 0 <= i < |fields| => fields[i].name)
  }

  /** A name as SQLite reads it from a column definition: non-empty, no whitespace. */
  predicate IsToken(s: string) {
    |s| > 0 && NoSpace(s)
  }

  /** The words of a column definition. */
  function ColumnTokens(c: Column): seq<string> {
    [c.name, c.sqlType] + ConstraintTokens(c)
  }

  function ConstraintTokens(c: Column): seq<string> {
    (if c.notNull then ["NOT", "NULL"] else []) + (if c.unique then ["UNIQUE"] else [])
  }

  /** Reads a column definition back: name, type and the two constraint flags. */
  function ParseColumnDefinition(s: string): Option<Column> {
    var ts := SplitWhitespace(s);
    if |ts| == 2 then Some(Column(ts[0], ts[1], false, false))
    else if |ts| == 3 && ts[2] == "UNIQUE" then Some(Column(ts[0], ts[1], false, true))
    else if |ts| == 4 && ts[2] == "NOT" && ts[3] == "NULL" then Some(Column(ts[0], ts[1], true, false))
    else if |ts| == 5 && ts[2] == "NOT" && ts[3] == "NULL" && ts[4] == "UNIQUE" then Some(Column(ts[0], ts[1], true, true))
    else None
  }

  /** The constraint text is the constraint words, each after one space. */
  lemma ConstraintTextIsJoin(c: Column)
    ensures ConstraintTokens(c) == [] ==> ConstraintText(c) == ""
    ensures ConstraintTokens(c) != [] ==> ConstraintText(c) == " " + JoinWords(ConstraintTokens(c))
  {
    if c.notNull && c.unique {
      JoinCons("NULL", ["UNIQUE"]);
      JoinCons("NOT", ["NULL", "UNIQUE"]);
      assert ["NOT", "NULL"] + ["UNIQUE"] == ["NOT"] + (["NULL"] + ["UNIQUE"]);
    } else if c.notNull {
      JoinCons("NOT", ["NULL"]);
      assert ["NOT", "NULL"] + [] == ["NOT"] + ["NULL"];
    } else if c.unique {
      assert [] + ["UNIQUE"] == ["UNIQUE"];
    }
  }

  lemma ColumnDefinitionIsJoin(c: Column)
    ensures ColumnDefinition(c) == JoinWords(ColumnTokens(c))
  {
    var n, t, cs := c.name, c.sqlType, ConstraintTokens(c);
    JoinCons(n, [t]);
    assert [n] + [t] == [n, t];
    ConstraintTextIsJoin(c);
    if cs == [] {
      assert ColumnTokens(c) == [n, t];
    } else {
      JoinConcat([n, t], cs);
    }
  }

  /** A column definition with a well-formed name and type reads back as the column it was made from. */
  lemma ParseColumnDefinitionOf(c: Column)
    requires IsToken(c.name) && IsToken(c.sqlType)
    ensures ParseColumnDefinition(ColumnDefinition(c)) == Some(c)
    ensures SplitWhitespace(ColumnDefinition(c))[0] == c.name
  {
    ColumnDefinitionIsJoin(c);
    ColumnTokensAreTokens(c);
    SplitJoin(ColumnTokens(c));
    ParseColumnTokens(c);
  }

  lemma ColumnTokensAreTokens(c: Column)
    requires IsToken(c.name) && IsToken(c.sqlType)
    ensures forall i :: 0 <= i < |ColumnTokens(c)| ==> IsToken(ColumnTokens(c)[i])
  {
    assert IsToken("NOT") && IsToken("NULL") && IsToken("UNIQUE");
  }

  /** The parser reads the column back from its list of words. */
  lemma ParseColumnTokens(c: Column)
    ensures var ts := ColumnTokens(c);
            && ts[0] == c.name && ts[1] == c.sqlType
            && (|ts| == 2 <==> !c.notNull && !c.unique)
            && (|ts| == 3 <==> !c.notNull && c.unique)
            && (|ts| == 3 ==> ts[2] == "UNIQUE")
            && (|ts| == 4 <==> c.notNull && !c.unique)
            && (|ts| == 4 ==> ts[2] == "NOT" && ts[3] == "NULL")
            && (|ts| == 5 <==> c.notNull && c.unique)
            && (|ts| == 5 ==> ts[2] == "NOT" && ts[3] == "NULL" && ts[4] == "UNIQUE")
  {
  }

  lemma SqlTypeIsToken(a: Annotation)
    ensures IsToken(GetSqlType(a))
  {
    var r := GetSqlType(a);
    assert r in {"TEXT", "INTEGER", "REAL", "BLOB"};
    assert IsToken("TEXT") && IsToken("INTEGER") && IsToken("REAL") && IsToken("BLOB");
  }

  /** The first word of the `id` definition is `id`. */
  lemma IdFirstWord()
    ensures FirstWord(IdColumnDefinition) == "id"
  {
    FirstWordOf("id", IdConstraints);
  }

  /**
   * What a column definition says about the field it was made from, read
   * back from its text: the field's name (also its first word), the
   * field's SQL type, NOT NULL exactly when the annotation has no origin,
   * and UNIQUE exactly for `keyword` and `abbreviation`.
   */
  ghost predicate DefinesField(def: string, f: ModelField) {
    var c := ParseColumnDefinition(def);
    && c.Some?
    && c.value.name == f.name
    && FirstWord(def) == f.name
    && c.value.sqlType == GetSqlType(f.annotation)
    && (c.value.notNull <==> !f.annotation.Generic?)
    && (c.value.unique <==> f.name == "keyword" || f.name == "abbreviation")
  }

  lemma FieldColumnDefinition(f: ModelField)
    requires IsToken(f.name)
    ensures DefinesField(ColumnDefinition(ColumnFor(f)), f)
  {
    SqlTypeIsToken(f.annotation);
    ParseColumnDefinitionOf(ColumnFor(f));
  }

  /**
   * The CREATE TABLE column list: first the `id` primary key, then one
   * definition per field in declaration order, each saying what
   * `DefinesField` lists.
   */
  lemma CreateTableColumnsSpec(fields: seq<ModelField>)
    requires forall i :: 0 <= i < |fields| ==> IsToken(fields[i].name)
    ensures |CreateTableColumns(fields)| == |fields| + 1
    ensures CreateTableColumns(fields)[0] == IdColumnDefinition
    ensures forall i :: 0 <= i < |fields| ==> DefinesField(CreateTableColumns(fields)[i + 1], fields[i])
  {
    var defs := CreateTableColumns(fields);
    forall i | 0 <= i < |fields|
      ensures DefinesField(defs[i + 1], fields[i])
    {
      assert defs[i + 1] == ColumnDefinition(ColumnFor(fields[i]));
      FieldColumnDefinition(fields[i]);
    }
  }

  /** The column names `create_table_from_model` prints, the first word of each definition, are `id` and then the field names. */
  lemma PrintedColumnNames(fields: seq<ModelField>)
    requires forall i :: 0 <= i < |fields| ==> IsToken(fields[i].name)
    ensures FirstWord(CreateTableColumns(fields)[0]) == "id"
    ensures forall i :: 0 <= i < |fields| ==> FirstWord(CreateTableColumns(fields)[i + 1]) == FieldNames(fields)[i]
  {
    CreateTableColumnsSpec(fields);
    IdFirstWord();
  }

  /** The `Word` model's table: `keyword` and `abbreviation` are TEXT NOT NULL UNIQUE, `description` is TEXT. */
  lemma WordTableDefinition()
    ensures CreateTableColumns(WordFields()) ==
              [ IdColumnDefinition,
                "keyword TEXT NOT NULL UNIQUE",
                "abbreviation TEXT NOT NULL UNIQUE",
                "description TEXT" ]
    ensures ModelColumns(WordFields()) == WordColumns()
  {
    var fs := WordFields();
    WordColumnFor();
    KeywordDefinition();
    AbbreviationDefinition();
    DescriptionDefinition();
    var defs := CreateTableColumns(fs);
    assert |defs| == 4;
    assert defs[1] == ColumnDefinition(ColumnFor(fs[0]));
    assert defs[2] == ColumnDefinition(ColumnFor(fs[1]));
    assert defs[3] == ColumnDefinition(ColumnFor(fs[2]));
  }

  lemma WordColumnFor()
    ensures ColumnFor(WordFields()[0]) == Column("keyword", "TEXT", true, true)
    ensures ColumnFor(WordFields()[1]) == Column("abbreviation", "TEXT", true, true)
    ensures ColumnFor(WordFields()[2]) == Column("description", "TEXT", false, false)
  {
  }

  lemma KeywordDefinition()
    ensures ColumnDefinition(Column("keyword", "TEXT", true, true)) == "keyword TEXT NOT NULL UNIQUE"
  {
  }

  lemma AbbreviationDefinition()
    ensures ColumnDefinition(Column("abbreviation", "TEXT", true, true)) == "abbreviation TEXT NOT NULL UNIQUE"
  {
  }

  lemma DescriptionDefinition()
    ensures ColumnDefinition(Column("description", "TEXT", false, false)) == "description TEXT"
  {
  }

  /** The columns of the `words` table besides `id`. */
  function WordColumns(): seq<Column> {
    [ Column("keyword", "TEXT", true, true),
      Column("abbreviation", "TEXT", true, true),
      Column("description", "TEXT", false, false) ]
  }

  // ---------------------------------------------------------------------
  // The table
  // ---------------------------------------------------------------------

  /** A row as `dict(sqlite3.Row)` gives it: column name to value. */
  type Row = map<string, PyValue>

  /** A table: its columns besides `id`, its rows in insertion order, and the next AUTOINCREMENT id. */
  datatype Table = Table(columns: seq<Column>, rows: seq<Row>, nextId: nat)

  /** The dictionary database as the functions of database.py reach it. */
  datatype Store = Store(available: bool, table: Table)

  /** The value in a row's column; an absent column reads as NULL. */
  function Cell(row: Row, name: string): PyValue {
    if name in row then row[name] else PyNone
  }

  function ColumnNames(cs: seq<Column>): set<string> {
    set c | c in cs :: c.name
  }

  /**
   * `SELECT 1 FROM words WHERE <name> = ?` finds a row, for a value `v` as
   * the column stores it (see `Stored`). Equality with NULL never holds in
   * SQL, so a NULL parameter finds nothing.
   */
  function AnyRowHas(rows: seq<Row>, name: string, v: PyValue): (b: bool)
    ensures b <==> v != PyNone && exists i :: 0 <= i < |rows| && Cell(rows[i], name) == v
  {
    if |rows| == 0 || v == PyNone then false
    else if Cell(rows[0], name) == v then true
    else
      var b := AnyRowHas(rows[1..], name, v);
      assert forall i :: 1 <= i < |rows| ==> rows[i] == rows[1..][i - 1];
      b
  }

  const MinInt64: int := -0x8000_0000_0000_0000
  const MaxInt64: int := 0x7FFF_FFFF_FFFF_FFFF

  /**
   * The SQLite value `sqlite3` binds a Python parameter as: `None` and
   * `str` as themselves, `bool` as the integer 0 or 1, `int` only within
   * the signed 64-bit range (`OverflowError` otherwise); no other type can
   * be bound.
   */
  function Bind(v: PyValue): (r: Option<PyValue>)
    ensures r.None? <==> v.PyOther? || (v.PyInt? && !(MinInt64 <= v.i <= MaxInt64))
    ensures r.Some? ==> !r.value.PyBool? && !r.value.PyOther?
    ensures v.PyNone? || v.PyStr? ==> r == Some(v)
    ensures v.PyBool? ==> r == Some(PyInt(if v.b then 1 else 0))
    ensures v.PyInt? && MinInt64 <= v.i <= MaxInt64 ==> r == Some(v)
  {
    match v
    case PyBool(b) => Some(PyInt(if b then 1 else 0))
    case PyInt(i) => if MinInt64 <= i <= MaxInt64 then Some(v) else None
    case PyOther => None
    case _ => Some(v)
  }

  /**
   * The value a column of the given declared type keeps for a bound value.
   * A TEXT column turns integers into their decimal text; NULL and text
   * are kept as they are.
   */
  function Affinity(sqlType: string, v: PyValue): PyValue {
    if sqlType == "TEXT" && v.PyInt? then PyStr(DecimalString(v.i)) else v
  }

  /** In a TEXT column two integers are stored as the same text only when they are equal. */
  lemma AffinityTextInjective(a: int, b: int)
    ensures Affinity("TEXT", PyInt(a)) == Affinity("TEXT", PyInt(b)) <==> a == b
  {
    DecimalStringInjective(a, b);
  }

  /** The declared type of the first column called `name`; `""` when there is none. */
  function ColumnType(cs: seq<Column>, name: string): string {
    if |cs| == 0 then "" else if cs[0].name == name then cs[0].sqlType else ColumnType(cs[1..], name)
  }

  /** Every given value can be bound. */
  predicate Bindable(values: map<string, PyValue>) {
    forall n :: n in values ==> Bind(values[n]).Some?
  }

  /** The values an INSERT stores: each bound, then converted by its column's affinity. */
  function Stored(t: Table, values: map<string, PyValue>): (s: map<string, PyValue>)
    requires Bindable(values)
    ensures s.Keys == values.Keys
    ensures forall n :: n in values ==> s[n] == Affinity(ColumnType(t.columns, n), Bind(values[n]).value)
  {
    map n | n in values :: Affinity(ColumnType(t.columns, n), Bind(values[n]).value)
  }

  /** Values that are all text or NULL bind and are stored unchanged, whatever the columns. */
  lemma StoredTextValues(t: Table, values: map<string, PyValue>)
    requires forall n :: n in values ==> values[n].PyStr? || values[n].PyNone?
    ensures Bindable(values) && Stored(t, values) == values
  {
  }

  /** The row an INSERT stores: the given values, NULL for columns not given, and the new `id`. */
  function NewRow(t: Table, values: map<string, PyValue>): Row {
    (map n | n in ColumnNames(t.columns) :: Cell(values, n))["id" := PyInt(t.nextId)]
  }

  datatype SqlError = NoSuchColumn | BindFailed | NotNullFailed | UniqueFailed

  /** Every given key names a column. */
  predicate ColumnsKnown(t: Table, values: map<string, PyValue>) {
    values.Keys <= ColumnNames(t.columns)
  }

  /** No NOT NULL column would get NULL. */
  predicate NotNullMet(t: Table, values: map<string, PyValue>) {
    forall k :: 0 <= k < |t.columns| && t.columns[k].notNull ==> Cell(values, t.columns[k].name) != PyNone
  }

  /** No UNIQUE column would repeat a non-NULL value already stored. */
  predicate UniqueMet(t: Table, values: map<string, PyValue>) {
    forall k :: 0 <= k < |t.columns| && t.columns[k].unique ==> !AnyRowHas(t.rows, t.columns[k].name, Cell(values, t.columns[k].name))
  }

  /**
   * `INSERT INTO words (<keys of values>) VALUES (...)`: fails when a key
   * is not a column, when a value cannot be bound, when a NOT NULL column
   * would get NULL, or when a UNIQUE column would repeat a value already
   * in the table, checked in that order; otherwise appends exactly one
   * row holding the stored values.
   */
  function Insert(t: Table, values: map<string, PyValue>): (r: Result<Table, SqlError>)
    ensures r.Success? <==>
              && ColumnsKnown(t, values) && Bindable(values)
              && NotNullMet(t, Stored(t, values)) && UniqueMet(t, Stored(t, values))
    ensures r.Success? ==> r.value == Table(t.columns, t.rows + [NewRow(t, Stored(t, values))], t.nextId + 1)
    ensures !ColumnsKnown(t, values) ==> r == Failure(NoSuchColumn)
    ensures ColumnsKnown(t, values) && !Bindable(values) ==> r == Failure(BindFailed)
    ensures ColumnsKnown(t, values) && Bindable(values) && !NotNullMet(t, Stored(t, values)) ==> r == Failure(NotNullFailed)
    ensures (ColumnsKnown(t, values) && Bindable(values) && NotNullMet(t, Stored(t, values)) && !UniqueMet(t, Stored(t, values)))
              ==> r == Failure(UniqueFailed)
  {
    if !ColumnsKnown(t, values) then Failure(NoSuchColumn)
    else if !Bindable(values) then Failure(BindFailed)
    else
      var s := Stored(t, values);
      if !NotNullMet(t, s) then Failure(NotNullFailed)
      else if !UniqueMet(t, s) then Failure(UniqueFailed)
      else Success(Table(t.columns, t.rows + [NewRow(t, s)], t.nextId + 1))
  }

  /** Every row has a value in every NOT NULL column. */
  ghost predicate NotNullHolds(t: Table) {
    forall i, k :: 0 <= i < |t.rows| && 0 <= k < |t.columns| && t.columns[k].notNull ==> Cell(t.rows[i], t.columns[k].name) != PyNone
  }

  /** No two rows share a non-NULL value in a UNIQUE column. */
  ghost predicate UniqueHolds(t: Table) {
    forall i, j, k :: 0 <= i < j < |t.rows| && 0 <= k < |t.columns| && t.columns[k].unique && Cell(t.rows[i], t.columns[k].name) != PyNone
      ==> Cell(t.rows[i], t.columns[k].name) != Cell(t.rows[j], t.columns[k].name)
  }

  /** What SQLite's constraints guarantee about the stored rows. */
  ghost predicate Invariant(t: Table) {
    "id" !in ColumnNames(t.columns) && NotNullHolds(t) && UniqueHolds(t)
  }

  lemma NewRowCell(t: Table, values: map<string, PyValue>, name: string)
    requires name in ColumnNames(t.columns) && name != "id"
    ensures Cell(NewRow(t, values), name) == Cell(values, name)
  {
  }

  /** An INSERT that succeeds keeps the NOT NULL and UNIQUE guarantees. */
  lemma InsertKeepsInvariant(t: Table, values: map<string, PyValue>)
    requires Invariant(t)
    requires Insert(t, values).Success?
    ensures Invariant(Insert(t, values).value)
  {
    var s := Stored(t, values);
    var row := NewRow(t, s);
    forall k | 0 <= k < |t.columns|
      ensures Cell(row, t.columns[k].name) == Cell(s, t.columns[k].name)
    {
      assert t.columns[k].name in ColumnNames(t.columns);
      NewRowCell(t, s, t.columns[k].name);
    }
    AppendKeepsInvariant(t, row, t.nextId + 1);
  }

  /** Appending a row that meets the NOT NULL and UNIQUE checks keeps their guarantees. */
  lemma AppendKeepsInvariant(t: Table, row: Row, nextId: nat)
    requires Invariant(t)
    requires NotNullMet(t, row) && UniqueMet(t, row)
    ensures Invariant(Table(t.columns, t.rows + [row], nextId))
  {
    var t' := Table(t.columns, t.rows + [row], nextId);
    assert forall i :: 0 <= i < |t.rows| ==> t'.rows[i] == t.rows[i];
    assert t'.rows[|t.rows|] == row;
  }

  // ---------------------------------------------------------------------
  // The words table
  // ---------------------------------------------------------------------

  ghost predicate IsWordTable(t: Table) {
    t.columns == WordColumns()
  }

  lemma WordColumnNames()
    ensures ColumnNames(WordColumns()) == {"keyword", "abbreviation", "description"}
  {
    var cs := WordColumns();
    assert cs[0].name == "keyword" && cs[1].name == "abbreviation" && cs[2].name == "description";
    assert "keyword" in ColumnNames(cs);
    assert "abbreviation" in ColumnNames(cs);
    assert "description" in ColumnNames(cs);
  }

  /** The row stored for a word: its dump plus the `id`. */
  function WordRow(id: int, w: Word): Row {
    Dump(w)["id" := PyInt(id)]
  }

  lemma NewWordRow(t: Table, w: Word)
    requires IsWordTable(t)
    ensures NewRow(t, Dump(w)) == WordRow(t.nextId, w)
  {
    WordColumnNames();
  }

  /**
   * Inserting a word into the words table succeeds exactly when no row
   * holds its keyword and no row holds its abbreviation; the stored row
   * is the word's.
   */
  lemma InsertWordRow(t: Table, w: Word)
    requires IsWordTable(t)
    ensures Insert(t, Dump(w)).Success? <==>
              && !AnyRowHas(t.rows, "keyword", PyStr(w.keyword))
              && !AnyRowHas(t.rows, "abbreviation", PyStr(w.abbreviation))
    ensures Insert(t, Dump(w)).Success? ==> Insert(t, Dump(w)).value.rows == t.rows + [WordRow(t.nextId, w)]
  {
    WordStored(t, w);
    WordMeetsColumns(t, w);
    WordUniqueMet(t, w);
    NewWordRow(t, w);
  }

  /** A word's dump holds only text and NULL, so it is bound and stored as it is. */
  lemma WordStored(t: Table, w: Word)
    ensures Bindable(Dump(w)) && Stored(t, Dump(w)) == Dump(w)
  {
    StoredTextValues(t, Dump(w));
  }

  /** A word names only columns of the words table and fills both NOT NULL columns. */
  lemma WordMeetsColumns(t: Table, w: Word)
    requires IsWordTable(t)
    ensures ColumnsKnown(t, Dump(w)) && NotNullMet(t, Dump(w))
  {
    WordColumnNames();
    var cs := WordColumns();
    assert cs[0].name == "keyword" && cs[1].name == "abbreviation" && !cs[2].notNull;
  }

  /**
   * An integer abbreviation clashes with its decimal text already stored:
   * the TEXT column turns `42` into `"42"` before the UNIQUE check.
   */
  lemma IntegerRepeatsStoredText(t: Table, keyword: string, n: int, i: int)
    requires IsWordTable(t)
    requires MinInt64 <= n <= MaxInt64
    requires 0 <= i < |t.rows| && Cell(t.rows[i], "abbreviation") == PyStr(DecimalString(n))
    ensures Insert(t, map["keyword" := PyStr(keyword), "abbreviation" := PyInt(n)]) == Failure(UniqueFailed)
  {
    var values := map["keyword" := PyStr(keyword), "abbreviation" := PyInt(n)];
    var cs := WordColumns();
    WordColumnNames();
    assert cs[0].name == "keyword" && cs[1].name == "abbreviation" && cs[1].unique && !cs[2].notNull;
    assert ColumnType(cs, "keyword") == "TEXT";
    assert ColumnType(cs, "abbreviation") == "TEXT";
    assert Bindable(values);
    var st := Stored(t, values);
    assert Cell(st, "abbreviation") == PyStr(DecimalString(n));
    assert AnyRowHas(t.rows, "abbreviation", Cell(st, "abbreviation"));
  }

  /** The UNIQUE columns of the words table are `keyword` and `abbreviation`. */
  lemma WordUniqueMet(t: Table, w: Word)
    requires IsWordTable(t)
    ensures UniqueMet(t, Dump(w)) <==>
              && !AnyRowHas(t.rows, "keyword", PyStr(w.keyword))
              && !AnyRowHas(t.rows, "abbreviation", PyStr(w.abbreviation))
  {
    var cs := WordColumns();
    assert cs[0].name == "keyword" && cs[0].unique;
    assert cs[1].name == "abbreviation" && cs[1].unique;
    assert !cs[2].unique;
  }

  /** `check_keyword_exists`: some row holds exactly this keyword; `False` without a connection. */
  function KeywordExists(st: Store, keyword: string): (b: bool)
    ensures b <==> st.available && exists i :: 0 <= i < |st.table.rows| && Cell(st.table.rows[i], "keyword") == PyStr(keyword)
  {
    st.available && AnyRowHas(st.table.rows, "keyword", PyStr(keyword))
  }

  /** `check_abbreviation_exists`: some row holds exactly this abbreviation; `False` without a connection. */
  function AbbreviationExists(st: Store, abbreviation: string): (b: bool)
    ensures b <==> st.available && exists i :: 0 <= i < |st.table.rows| && Cell(st.table.rows[i], "abbreviation") == PyStr(abbreviation)
  {
    st.available && AnyRowHas(st.table.rows, "abbreviation", PyStr(abbreviation))
  }

  /**
   * `insert_word`: `True` with exactly one row added, or `False` with the
   * store unchanged (no connection, or a constraint error).
   */
  function InsertWord(st: Store, w: Word): (r: (bool, Store))
    ensures !r.0 ==> r.1 == st
    ensures r.0 ==> st.available && r.1.available && r.1.table.columns == st.table.columns
  {
    if !st.available then (false, st)
    else
      match Insert(st.table, Dump(w))
      case Success(t) => (true, st.(table := t))
      case Failure(_) => (false, st)
  }

  /** A successful `insert_word` appends exactly one row, built from the word, and keeps the columns. */
  lemma InsertWordAppendsOneRow(st: Store, w: Word)
    requires InsertWord(st, w).0
    ensures InsertWord(st, w).1.table.rows == st.table.rows + [NewRow(st.table, Dump(w))]
  {
    WordStored(st.table, w);
  }

  /**
   * On the words table `insert_word` succeeds exactly when a connection is
   * available and neither the keyword nor the abbreviation is stored yet,
   * and then the new last row is the word's.
   */
  lemma InsertWordSpec(st: Store, w: Word)
    requires IsWordTable(st.table)
    ensures InsertWord(st, w).0 <==>
              st.available && !KeywordExists(st, w.keyword) && !AbbreviationExists(st, w.abbreviation)
    ensures InsertWord(st, w).0 ==> InsertWord(st, w).1.table.rows == st.table.rows + [WordRow(st.table.nextId, w)]
  {
    InsertWordRow(st.table, w);
  }

  /** Every store `insert_word` leaves behind keeps the NOT NULL and UNIQUE guarantees. */
  lemma InsertWordKeepsInvariant(st: Store, w: Word)
    requires Invariant(st.table)
    ensures Invariant(InsertWord(st, w).1.table)
  {
    if InsertWord(st, w).0 {
      InsertKeepsInvariant(st.table, Dump(w));
    }
  }

  /** In a words table that keeps its constraints, no two rows share a keyword or an abbreviation. */
  lemma WordTableHasNoDuplicates(t: Table)
    requires IsWordTable(t) && Invariant(t)
    ensures forall i, j :: 0 <= i < j < |t.rows| ==>
              && Cell(t.rows[i], "keyword") != Cell(t.rows[j], "keyword")
              && Cell(t.rows[i], "abbreviation") != Cell(t.rows[j], "abbreviation")
  {
    var cs := WordColumns();
    assert cs[0].name == "keyword" && cs[0].unique && cs[0].notNull;
    assert cs[1].name == "abbreviation" && cs[1].unique && cs[1].notNull;
    forall i, j | 0 <= i < j < |t.rows|
      ensures Cell(t.rows[i], "keyword") != Cell(t.rows[j], "keyword")
      ensures Cell(t.rows[i], "abbreviation") != Cell(t.rows[j], "abbreviation")
    {
      assert Cell(t.rows[i], t.columns[0].name) != PyNone;
      assert Cell(t.rows[i], t.columns[1].name) != PyNone;
    }
  }

  // ---------------------------------------------------------------------
  // Reading back: get_all_words
  // ---------------------------------------------------------------------

  /** The `filtered_dict` of a row: only the keys that are model fields and present in the row. */
  function ModelFieldValues(row: Row): map<string, PyValue> {
    map n | n in FieldNames(WordFields()) && n in row :: row[n]
  }

  /** `Word(**filtered_dict)` for one row. */
  function WordOfRow(row: Row): Result<Word, ValidationError> {
    ConstructWord(ModelFieldValues(row))
  }

  lemma WordFieldNames()
    ensures FieldNames(WordFields()) == ["keyword", "abbreviation", "description"]
  {
  }

  /** A column that is not a model field, such as `id`, does not affect the word read from a row. */
  lemma WordOfRowIgnoresOtherColumns(row: Row, name: string, v: PyValue)
    requires name !in FieldNames(WordFields())
    ensures WordOfRow(row[name := v]) == WordOfRow(row)
  {
    assert ModelFieldValues(row[name := v]) == ModelFieldValues(row);
  }

  /** The row stored for a word reads back as that word. */
  lemma WordRowRoundTrip(id: int, w: Word)
    ensures WordOfRow(WordRow(id, w)) == Success(w)
  {
    WordFieldNames();
    assert ModelFieldValues(WordRow(id, w)) == Dump(w);
    ConstructDump(w);
  }

  /** The values of a list of results in order; the first failure, if any, is the result. */
  function Collect<T, E>(rs: seq<Result<T, E>>): (r: Result<seq<T>, E>)
    ensures r.Success? <==> forall i :: 0 <= i < |rs| ==> rs[i].Success?
    ensures r.Success? ==> |r.value| == |rs| && forall i :: 0 <= i < |rs| ==> rs[i] == Success(r.value[i])
  {
    if |rs| == 0 then Success([])
    else
      match rs[0]
      case Failure(e) => Failure(e)
      case Success(w) =>
        match Collect(rs[1..])
        case Failure(e) =>
          assert exists i :: 1 <= i < |rs| && rs[i].Failure? by {
            var j :| 0 <= j < |rs[1..]| && rs[1..][j].Failure?;
            assert rs[1..][j] == rs[j + 1];
          }
          Failure(e)
        case Success(ws) =>
          assert forall i :: 1 <= i < |rs| ==> rs[i] == rs[1..][i - 1];
          Success([w] + ws)
  }

  /** One word per row in row order; the first row that fails validation raises. */
  function WordsOfRows(rows: seq<Row>): (r: Result<seq<Word>, ValidationError>)
    ensures r.Success? <==> forall i :: 0 <= i < |rows| ==> WordOfRow(rows[i]).Success?
    ensures r.Success? ==> |r.value| == |rows| && forall i :: 0 <= i < |rows| ==> WordOfRow(rows[i]) == Success(r.value[i])
  {
    var rs := seq(|rows|, i requires 0 <= i < |rows| => WordOfRow(rows[i]));
    assert forall i :: 0 <= i < |rows| ==> rs[i] == WordOfRow(rows[i]);
    Collect(rs)
  }

  /** `get_all_words`: an empty list without a connection, otherwise one word per row. */
  function GetAllWords(st: Store): (r: Result<seq<Word>, ValidationError>)
    ensures !st.available ==> r == Success([])
    ensures st.available && r.Success? ==>
              |r.value| == |st.table.rows| && forall i :: 0 <= i < |r.value| ==> WordOfRow(st.table.rows[i]) == Success(r.value[i])
  {
    if !st.available then Success([]) else WordsOfRows(st.table.rows)
  }

  /** The row's keyword, abbreviation and description cells are those of `w`. */
  ghost predicate RowHoldsWord(row: Row, w: Word) {
    && Cell(row, "keyword") == PyStr(w.keyword)
    && Cell(row, "abbreviation") == PyStr(w.abbreviation)
    && Cell(row, "description") == Dump(w)["description"]
  }

  /** A row that holds a word reads back as that word, whatever its other columns. */
  lemma RowHoldsWordReads(row: Row, w: Word)
    requires RowHoldsWord(row, w)
    ensures WordOfRow(row) == Success(w)
  {
    WordFieldNames();
    var kw := ModelFieldValues(row);
    assert kw["keyword"] == PyStr(w.keyword);
    assert kw["abbreviation"] == PyStr(w.abbreviation);
    assert ArgOrNone(kw, "description") == Dump(w)["description"];
  }

  /** The rows hold the words `ws`, one row per word, in order. */
  ghost predicate RowsHold(rows: seq<Row>, ws: seq<Word>) {
    |rows| == |ws| && forall i :: 0 <= i < |rows| ==> RowHoldsWord(rows[i], ws[i])
  }

  lemma RowsHoldAppend(rows: seq<Row>, ws: seq<Word>, id: int, w: Word)
    requires RowsHold(rows, ws)
    ensures RowsHold(rows + [WordRow(id, w)], ws + [w])
  {
    assert RowHoldsWord(WordRow(id, w), w);
  }

  /** Reading back rows that hold `ws` gives `ws`. */
  lemma WordsOfRowsHeld(rows: seq<Row>, ws: seq<Word>)
    requires RowsHold(rows, ws)
    ensures WordsOfRows(rows) == Success(ws)
  {
    forall i | 0 <= i < |rows|
      ensures WordOfRow(rows[i]) == Success(ws[i])
    {
      RowHoldsWordReads(rows[i], ws[i]);
    }
    var r := WordsOfRows(rows);
    assert r.Success?;
    assert r.value == ws;
  }

  // ---------------------------------------------------------------------
  // Bulk load: is_database_populated, populate_database
  // ---------------------------------------------------------------------

  /** `is_database_populated`: `SELECT COUNT(*) FROM words` is positive. */
  function IsDatabasePopulated(t: Table): bool {
    |t.rows| > 0
  }

  /**
   * The insert loop of `populate_database`, in input order. A constraint
   * error raises out of the loop before `commit`, so nothing of the load
   * is kept; the failure stands for that.
   */
  function InsertAll(t: Table, words: seq<Word>): (r: Result<Table, SqlError>)
    ensures r.Success? ==> r.value.columns == t.columns
    decreases |words|
  {
    if |words| == 0 then Success(t)
    else
      match Insert(t, Dump(words[0]))
      case Failure(e) => Failure(e)
      case Success(t1) => InsertAll(t1, words[1..])
  }

  /** A successful load adds one row per item. */
  lemma {:induction false} InsertAllLength(t: Table, words: seq<Word>)
    requires InsertAll(t, words).Success?
    ensures |InsertAll(t, words).value.rows| == |t.rows| + |words|
    decreases |words|
  {
    if |words| > 0 {
      InsertAllLength(Insert(t, Dump(words[0])).value, words[1..]);
    }
  }

  /** `populate_database`: a table that already has rows is left alone, an empty one gets every item. */
  function PopulateDatabase(t: Table, words: seq<Word>): (r: Result<Table, SqlError>)
    ensures IsDatabasePopulated(t) ==> r == Success(t)
    ensures r.Success? ==> r.value.columns == t.columns
  {
    if IsDatabasePopulated(t) then Success(t) else InsertAll(t, words)
  }

  /** After a successful `populate_database` the table counts as populated exactly when it was, or some item was given. */
  lemma PopulatedAfterLoad(t: Table, words: seq<Word>)
    requires PopulateDatabase(t, words).Success?
    ensures IsDatabasePopulated(PopulateDatabase(t, words).value) <==> IsDatabasePopulated(t) || words != []
  {
    if !IsDatabasePopulated(t) {
      InsertAllLength(t, words);
    }
  }

  /** No two of the words share a keyword, and no two share an abbreviation. */
  ghost predicate DistinctEntries(ws: seq<Word>) {
    forall i, j :: 0 <= i < j < |ws| ==> ws[i].keyword != ws[j].keyword && ws[i].abbreviation != ws[j].abbreviation
  }

  lemma RowsHoldLookup(rows: seq<Row>, ws: seq<Word>, w: Word)
    requires RowsHold(rows, ws)
    ensures AnyRowHas(rows, "keyword", PyStr(w.keyword)) <==> exists i :: 0 <= i < |ws| && ws[i].keyword == w.keyword
    ensures AnyRowHas(rows, "abbreviation", PyStr(w.abbreviation)) <==> exists i :: 0 <= i < |ws| && ws[i].abbreviation == w.abbreviation
  {
  }

  /** A word that shares neither keyword nor abbreviation with `done` can join it. */
  lemma DistinctAppend(done: seq<Word>, w: Word)
    requires DistinctEntries(done)
    requires forall i :: 0 <= i < |done| ==> done[i].keyword != w.keyword && done[i].abbreviation != w.abbreviation
    ensures DistinctEntries(done + [w])
  {
    var done1 := done + [w];
    forall i, j | 0 <= i < j < |done1|
      ensures done1[i].keyword != done1[j].keyword && done1[i].abbreviation != done1[j].abbreviation
    {
      assert done1[i] == done[i];
      if j < |done| { assert done1[j] == done[j]; }
    }
  }

  /**
   * Loading `words` into a words table that holds `done` succeeds exactly
   * when `done + words` has distinct keywords and abbreviations, and then
   * the table holds `done + words` in order.
   */
  lemma {:induction false} InsertAllSpec(t: Table, done: seq<Word>, words: seq<Word>)
    requires IsWordTable(t) && RowsHold(t.rows, done) && DistinctEntries(done)
    ensures InsertAll(t, words).Success? <==> DistinctEntries(done + words)
    ensures InsertAll(t, words).Success? ==> RowsHold(InsertAll(t, words).value.rows, done + words)
    decreases |words|
  {
    if |words| == 0 {
      assert done + words == done;
    } else {
      var w := words[0];
      var all := done + words;
      assert all[|done|] == w;
      InsertNextWord(t, done, w);
      if Insert(t, Dump(w)).Success? {
        var t1 := Insert(t, Dump(w)).value;
        assert (done + [w]) + words[1..] == all;
        InsertAllSpec(t1, done + [w], words[1..]);
      } else {
        var i :| 0 <= i < |done| && (done[i].keyword == w.keyword || done[i].abbreviation == w.abbreviation);
        assert all[i] == done[i];
      }
    }
  }

  /**
   * One step of the load: the next word goes in exactly when it shares
   * neither keyword nor abbreviation with the words already loaded, and
   * the table then holds those words followed by it.
   */
  lemma InsertNextWord(t: Table, done: seq<Word>, w: Word)
    requires IsWordTable(t) && RowsHold(t.rows, done) && DistinctEntries(done)
    ensures Insert(t, Dump(w)).Success? <==>
              forall i :: 0 <= i < |done| ==> done[i].keyword != w.keyword && done[i].abbreviation != w.abbreviation
    ensures Insert(t, Dump(w)).Success? ==>
              && IsWordTable(Insert(t, Dump(w)).value)
              && RowsHold(Insert(t, Dump(w)).value.rows, done + [w])
              && DistinctEntries(done + [w])
  {
    InsertWordRow(t, w);
    RowsHoldLookup(t.rows, done, w);
    if Insert(t, Dump(w)).Success? {
      RowsHoldAppend(t.rows, done, t.nextId, w);
      DistinctAppend(done, w);
    }
  }

  /**
   * Loading an empty words table succeeds exactly when the items have
   * distinct keywords and distinct abbreviations; the table then reads
   * back as the items, in input order.
   */
  lemma PopulateEmptyTable(t: Table, words: seq<Word>)
    requires IsWordTable(t) && t.rows == []
    ensures PopulateDatabase(t, words).Success? <==> DistinctEntries(words)
    ensures PopulateDatabase(t, words).Success? ==> WordsOfRows(PopulateDatabase(t, words).value.rows) == Success(words)
  {
    assert RowsHold(t.rows, []);
    assert [] + words == words;
    InsertAllSpec(t, [], words);
    if PopulateDatabase(t, words).Success? {
      WordsOfRowsHeld(PopulateDatabase(t, words).value.rows, words);
    }
  }

  lemma {:induction false} InsertAllKeepsInvariant(t: Table, words: seq<Word>)
    requires Invariant(t)
    requires InsertAll(t, words).Success?
    ensures Invariant(InsertAll(t, words).value)
    decreases |words|
  {
    if |words| > 0 {
      InsertKeepsInvariant(t, Dump(words[0]));
      InsertAllKeepsInvariant(Insert(t, Dump(words[0])).value, words[1..]);
    }
  }

  /** `CREATE TABLE IF NOT EXISTS words (...)`: an existing table is kept as it is. */
  function CreateTable(existing: Option<Table>): (t: Table)
    ensures existing.None? ==> IsWordTable(t) && t.rows == [] && Invariant(t)
    ensures existing.Some? ==> t == existing.value
  {
    match existing
    case Some(t) => t
    case None =>
      WordTableDefinition();
      WordColumnNames();
      Table(ModelColumns(WordFields()), [], 1)
  }

  /**
   * `setup_database` with a connection: create the table if needed, then
   * populate it. Starting from no table or a words table that keeps its
   * constraints, a successful setup leaves a words table that keeps them.
   */
  lemma SetupKeepsInvariant(existing: Option<Table>, words: seq<Word>)
    requires existing.Some? ==> IsWordTable(existing.value) && Invariant(existing.value)
    ensures var r := PopulateDatabase(CreateTable(existing), words);
            r.Success? ==> IsWordTable(r.value) && Invariant(r.value)
  {
    var t := CreateTable(existing);
    if !IsDatabasePopulated(t) && InsertAll(t, words).Success? {
      InsertAllKeepsInvariant(t, words);
    }
  }
}

=== FILE: models.dfy ===
/**
 * The `Word` record of the dictionary: its fields, its validating
 * constructor, its attribute dump and the text used for embeddings
 * (models.py).
 */
module Models {
  import opened Wrappers
  import opened Strings

  /** One dictionary entry. `description` is optional and defaults to `None`. */
  datatype Word = Word(keyword: string, abbreviation: string, description: Option<string>)

  /**
   * The Python values that reach the record's constructor and the database
   * driver. `PyOther` is a list or a dict, the only other values a decoded
   * reply can hold.
   */
  datatype PyValue = PyNone | PyBool(b: bool) | PyInt(i: int) | PyStr(s: string) | PyOther

  /**
   * A field's type annotation as `typing.get_origin` / `typing.get_args` see
   * it. `Generic(args)` is every annotation that has an origin, with its type
   * arguments; `Optional[X]` is `Union[X, None]`, so it is `Generic([X, NoneType])`.
   * The other constructors have no origin.
   */
  datatype Annotation = Str | Int | Float | Bool | Bytes | NoneType | Other | Generic(args: seq<Annotation>)

  /** One entry of a model's `model_fields`. */
  datatype ModelField = ModelField(name: string, annotation: Annotation)

  /** `Word.model_fields`, in declaration order. */
  function WordFields(): seq<ModelField> {
    [ ModelField("keyword", Str),
      ModelField("abbreviation", Str),
      ModelField("description", Generic([Str, NoneType])) ]
  }

  datatype ValidationError = Missing(field: string) | WrongType(field: string)

  /** The value given for `name`, with the default `None` when it is not given. */
  function ArgOrNone(kwargs: map<string, PyValue>, name: string): PyValue {
    if name in kwargs then kwargs[name] else PyNone
  }

  /**
   * `Word(**kwargs)`: `keyword` and `abbreviation` must be given as strings,
   * `description` may be a string or `None` and defaults to `None`; keys
   * that are not fields are ignored.
   */
  function ConstructWord(kwargs: map<string, PyValue>): (r: Result<Word, ValidationError>)
    ensures r.Success? <==>
              && "keyword" in kwargs && kwargs["keyword"].PyStr?
              && "abbreviation" in kwargs && kwargs["abbreviation"].PyStr?
              && (ArgOrNone(kwargs, "description").PyNone? || ArgOrNone(kwargs, "description").PyStr?)
    ensures "keyword" !in kwargs ==> r == Failure(Missing("keyword"))
    ensures r.Success? ==>
              && Dump(r.value)["keyword"] == kwargs["keyword"]
              && Dump(r.value)["abbreviation"] == kwargs["abbreviation"]
              && Dump(r.value)["description"] == ArgOrNone(kwargs, "description")
  {
    if "keyword" !in kwargs then Failure(Missing("keyword"))
    else if !kwargs["keyword"].PyStr? then Failure(WrongType("keyword"))
    else if "abbreviation" !in kwargs then Failure(Missing("abbreviation"))
    else if !kwargs["abbreviation"].PyStr? then Failure(WrongType("abbreviation"))
    else
      var keyword := kwargs["keyword"].s;
      var abbreviation := kwargs["abbreviation"].s;
      match ArgOrNone(kwargs, "description")
      case PyNone => Success(Word(keyword, abbreviation, None))
      case PyStr(d) => Success(Word(keyword, abbreviation, Some(d)))
      case _ => Failure(WrongType("description"))
  }

  /** `word.model_dump()`: every field by name, `None` for an absent description. */
  function Dump(w: Word): map<string, PyValue> {
    map[ "keyword" := PyStr(w.keyword),
         "abbreviation" := PyStr(w.abbreviation),
         "description" := match w.description case None => PyNone case Some(d) => PyStr(d) ]
  }

  /** Rebuilding a word from its own dump gives the same word back. */
  lemma ConstructDump(w: Word)
    ensures ConstructWord(Dump(w)) == Success(w)
  {
  }

  const KeywordLabel: string := "Keyword: "
  const AbbreviationLabel: string := " | Abbreviation: "
  const DescriptionLabel: string := " | Description: "

  /**
   * `word.embed_format()`. Python's `description or ''` gives `''` both for
   * `None` and for the empty string, which is what `GetOr("")` gives.
   */
  function EmbedFormat(w: Word): string {
    KeywordLabel + w.keyword + AbbreviationLabel + w.abbreviation + DescriptionLabel + w.description.GetOr("")
  }

  datatype EmbedFields = EmbedFields(keyword: string, abbreviation: string, description: string)

  /**
   * Cuts `s` at the first `|`, which must be the `|` of separator `sep`
   * (a separator that starts with " |"): the text before the separator and
   * the text after it.
   */
  function CutAtSeparator(s: string, sep: string): Option<(string, string)>
    requires |sep| >= 2
  {
    var i := IndexOf(s, '|');
    if i == 0 || !StartsWith(s[i - 1..], sep) then None
    else Some((s[..i - 1], s[i - 1 + |sep|..]))
  }

  /**
   * Reads the three fields back out of an embedding text: the keyword ends
   * just before the first `|`, the abbreviation just before the next one.
   */
  function ParseEmbedText(s: string): Option<EmbedFields> {
    if !StartsWith(s, KeywordLabel) then None
    else match CutAtSeparator(s[|KeywordLabel|..], AbbreviationLabel)
      case None => None
      case Some((keyword, rest)) =>
        match CutAtSeparator(rest, DescriptionLabel)
        case None => None
        case Some((abbreviation, description)) => Some(EmbedFields(keyword, abbreviation, description))
  }

  /** With no `|` in `pre`, cutting `pre + sep + post` at `sep` gives `pre` and `post`. */
  lemma CutAtOwnSeparator(pre: string, sep: string, post: string)
    requires '|' !in pre
    requires |sep| >= 2 && sep[0] == ' ' && sep[1] == '|'
    ensures CutAtSeparator(pre + sep + post, sep) == Some((pre, post))
  {
    var s := pre + sep + post;
    assert s[|pre| + 1] == '|';
    forall m | 0 <= m < |pre| + 1
      ensures s[m] != '|'
    {
      if m < |pre| { assert s[m] == pre[m]; }
    }
    var i := IndexOf(s, '|');
    assert i == |pre| + 1;
    assert s[|pre|..] == sep + post;
    assert s[..|pre|] == pre;
    assert s[|pre| + |sep|..] == post;
  }

  /**
   * When neither the keyword nor the abbreviation contains `|`, the
   * embedding text determines keyword, abbreviation and the description
   * text (`''` for `None`).
   */
  lemma EmbedRoundTrip(w: Word)
    requires '|' !in w.keyword && '|' !in w.abbreviation
    ensures ParseEmbedText(EmbedFormat(w)) == Some(EmbedFields(w.keyword, w.abbreviation, w.description.GetOr("")))
  {
    var k, a, d := w.keyword, w.abbreviation, w.description.GetOr("");
    var rest2 := a + DescriptionLabel + d;
    var rest := k + AbbreviationLabel + rest2;
    var s := EmbedFormat(w);
    assert s == KeywordLabel + rest;
    assert StartsWith(s, KeywordLabel);
    assert s[|KeywordLabel|..] == rest;
    CutAtOwnSeparator(k, AbbreviationLabel, rest2);
    CutAtOwnSeparator(a, DescriptionLabel, d);
  }

  /** The embedding text is the same for description `None` and description `""`. */
  lemma EmbedNoneIsEmpty(keyword: string, abbreviation: string)
    ensures EmbedFormat(Word(keyword, abbreviation, None)) == EmbedFormat(Word(keyword, abbreviation, Some("")))
  {
  }

  /**
   * For keywords and abbreviations without `|`, two words have the same
   * embedding text exactly when they agree on keyword, abbreviation and
   * description text; `None` versus `""` is the only collision.
   */
  lemma EmbedInjective(w1: Word, w2: Word)
    requires '|' !in w1.keyword && '|' !in w1.abbreviation
    requires '|' !in w2.keyword && '|' !in w2.abbreviation
    ensures EmbedFormat(w1) == EmbedFormat(w2) <==>
              && w1.keyword == w2.keyword
              && w1.abbreviation == w2.abbreviation
              && w1.description.GetOr("") == w2.description.GetOr("")
  {
    EmbedRoundTrip(w1);
    EmbedRoundTrip(w2);
  }

  /** Without the restriction on `|` two different entries can share one embedding text. */
  lemma EmbedCollidesWithSeparators()
    ensures EmbedFormat(Word("A | Abbreviation: B", "C", None)) == EmbedFormat(Word("A", "B | Abbreviation: C", None))
  {
  }
}

=== FILE: strings.dfy ===
/**
 * The handful of Python `str` operations the program relies on: `lower()`,
 * `strip()`, `split()`, `" ".join(...)`, the substring test `p in s`,
 * `str(n)` for integers, and a first-occurrence search.
 */
module Strings {

  /** Python's `str.isspace()` for one character. */
  predicate IsSpace(c: char) {
    var n := c as int;
    || (0x09 <= n <= 0x0D) || (0x1C <= n <= 0x20)
    || n == 0x85 || n == 0xA0 || n == 0x1680
    || (0x2000 <= n <= 0x200A)
    || n == 0x2028 || n == 0x2029 || n == 0x202F || n == 0x205F || n == 0x3000
  }

  predicate NoSpace(s: string) {
    forall i :: 0 <= i < |s| ==> !IsSpace(s[i])
  }

  /** Lower-casing of one character; only the ASCII letters change. */
  function LowerChar(c: char): char {
    if 'A' <= c <= 'Z' then (c as int + 32) as char else c
  }

  /** `s.lower()`, character by character. */
  function Lower(s: string): (r: string)
    ensures |r| == |s|
    ensures forall i :: 0 <= i < |s| ==> r[i] == LowerChar(s[i])
  {
    if |s| == 0 then "" else [LowerChar(s[0])] + Lower(s[1..])
  }

  lemma LowerAppend(a: string, b: string)
    ensures Lower(a + b) == Lower(a) + Lower(b)
  {
    var l, r := Lower(a + b), Lower(a) + Lower(b);
    forall i | 0 <= i < |a + b|
      ensures l[i] == r[i]
    {
      if i < |a| {
        assert (a + b)[i] == a[i];
      } else {
        assert (a + b)[i] == b[i - |a|];
      }
    }
    assert l == r;
  }

  /** Number of whitespace characters at the start of `s`. */
  function LeadingSpace(s: string): (n: nat)
    ensures n <= |s|
    ensures forall k :: 0 <= k < n ==> IsSpace(s[k])
    ensures n < |s| ==> !IsSpace(s[n])
  {
    if |s| == 0 || !IsSpace(s[0]) then 0 else 1 + LeadingSpace(s[1..])
  }

  /** Number of whitespace characters at the end of `s`. */
  function TrailingSpace(s: string): (n: nat)
    ensures n <= |s|
    ensures forall k :: |s| - n <= k < |s| ==> IsSpace(s[k])
    ensures n < |s| ==> !IsSpace(s[|s| - n - 1])
  {
    if |s| == 0 || !IsSpace(s[|s| - 1]) then 0 else 1 + TrailingSpace(s[..|s| - 1])
  }

  /**
   * `s.strip()`: the result is a slice of `s`, everything cut away is
   * whitespace, and the result neither starts nor ends with whitespace.
   */
  function Strip(s: string): (r: string)
    ensures |r| > 0 ==> !IsSpace(r[0]) && !IsSpace(r[|r| - 1])
    ensures exists i :: StrippedAt(s, r, i)
  {
    var i := LeadingSpace(s);
    var t := s[i..];
    var n := TrailingSpace(t);
    var r := t[..|t| - n];
    assert StrippedAt(s, r, i);
    r
  }

  /** `r` is `s[i..i + |r|]` and everything around it in `s` is whitespace. */
  predicate StrippedAt(s: string, r: string, i: int) {
    && 0 <= i <= |s| - |r|
    && r == s[i..i + |r|]
    && (forall k :: 0 <= k < i ==> IsSpace(s[k]))
    && (forall k :: i + |r| <= k < |s| ==> IsSpace(s[k]))
  }

  predicate StartsWith(s: string, p: string) {
    |p| <= |s| && s[..|p|] == p
  }

  /** Python's substring test `p in s`, as a left-to-right scan. */
  function Contains(s: string, p: string): bool
    decreases |s|
  {
    StartsWith(s, p) || (|s| > 0 && Contains(s[1..], p))
  }

  predicate OccursAt(s: string, p: string, i: int) {
    0 <= i && i + |p| <= |s| && s[i..i + |p|] == p
  }

  /** The scan finds `p` exactly when `p` occurs somewhere in `s`. */
  lemma {:induction false} ContainsIff(s: string, p: string)
    ensures Contains(s, p) <==> exists i :: OccursAt(s, p, i)
    decreases |s|
  {
    if StartsWith(s, p) {
      assert OccursAt(s, p, 0);
    } else if |s| > 0 {
      ContainsIff(s[1..], p);
      if Contains(s[1..], p) {
        var i :| OccursAt(s[1..], p, i);
        assert s[1..][i..i + |p|] == s[i + 1..i + 1 + |p|];
        assert OccursAt(s, p, i + 1);
      }
      if exists i :: OccursAt(s, p, i) {
        var i :| OccursAt(s, p, i);
        if i > 0 {
          assert s[1..][i - 1..i - 1 + |p|] == s[i..i + |p|];
          assert OccursAt(s[1..], p, i - 1);
        }
      }
    }
  }

  /** Index of the first `c` in `s`, or `|s|` when `c` does not occur. */
  function IndexOf(s: string, c: char): (i: nat)
    ensures i <= |s|
    ensures i < |s| ==> s[i] == c
    ensures forall k :: 0 <= k < i ==> s[k] != c
  {
    if |s| == 0 || s[0] == c then 0 else 1 + IndexOf(s[1..], c)
  }

  /** Length of the longest prefix of `s` that holds no whitespace. */
  function TokenLength(s: string): (n: nat)
    ensures n <= |s|
    ensures NoSpace(s[..n])
    ensures n < |s| ==> IsSpace(s[n])
    ensures |s| > 0 && !IsSpace(s[0]) ==> n > 0
  {
    if |s| == 0 || IsSpace(s[0]) then 0
    else
      var m := TokenLength(s[1..]);
      assert s[..1 + m] == [s[0]] + s[1..][..m];
      1 + m
  }

  /** `s.split()` with no argument: the maximal runs of non-whitespace characters. */
  function SplitWhitespace(s: string): (r: seq<string>)
    ensures forall i :: 0 <= i < |r| ==> |r[i]| > 0 && NoSpace(r[i])
    decreases |s|
  {
    if |s| == 0 then []
    else if IsSpace(s[0]) then SplitWhitespace(s[1..])
    else
      var n := TokenLength(s);
      [s[..n]] + SplitWhitespace(s[n..])
  }

  /** `s.split()[0]` for a string with at least one word; `""` otherwise. */
  function FirstWord(s: string): string {
    var ts := SplitWhitespace(s);
    if |ts| == 0 then "" else ts[0]
  }

  /** A word followed by whitespace is the first word. */
  lemma FirstWordOf(t: string, rest: string)
    requires |t| > 0 && NoSpace(t)
    requires |rest| > 0 && IsSpace(rest[0])
    ensures FirstWord(t + rest) == t
  {
    TokenLengthOf(t, rest);
    assert (t + rest)[..|t|] == t;
  }

  /** `" ".join(ts)`. */
  function JoinWords(ts: seq<string>): string {
    if |ts| == 0 then ""
    else if |ts| == 1 then ts[0]
    else ts[0] + " " + JoinWords(ts[1..])
  }

  lemma JoinCons(t: string, ts: seq<string>)
    requires |ts| > 0
    ensures JoinWords([t] + ts) == t + " " + JoinWords(ts)
  {
    assert ([t] + ts)[1..] == ts;
  }

  /** Joining two non-empty lists is joining each and putting one space between. */
  lemma {:induction false} JoinConcat(xs: seq<string>, ys: seq<string>)
    requires |xs| > 0 && |ys| > 0
    ensures JoinWords(xs + ys) == JoinWords(xs) + " " + JoinWords(ys)
    decreases |xs|
  {
    if |xs| == 1 {
      JoinCons(xs[0], ys);
      assert xs + ys == [xs[0]] + ys;
    } else {
      JoinConcat(xs[1..], ys);
      JoinCons(xs[0], xs[1..] + ys);
      assert xs + ys == [xs[0]] + (xs[1..] + ys);
      assert xs == [xs[0]] + xs[1..];
      JoinCons(xs[0], xs[1..]);
    }
  }

  lemma {:induction false} TokenLengthOf(t: string, rest: string)
    requires NoSpace(t)
    requires |rest| == 0 || IsSpace(rest[0])
    ensures TokenLength(t + rest) == |t|
    decreases |t|
  {
    if |t| > 0 {
      assert (t + rest)[1..] == t[1..] + rest;
      TokenLengthOf(t[1..], rest);
    }
  }

  /** Splitting a space-joined list of non-empty, whitespace-free words gives the words back. */
  lemma {:induction false} SplitJoin(ts: seq<string>)
    requires forall i :: 0 <= i < |ts| ==> |ts[i]| > 0 && NoSpace(ts[i])
    ensures SplitWhitespace(JoinWords(ts)) == ts
    decreases |ts|
  {
    if |ts| == 1 {
      var t := ts[0];
      TokenLengthOf(t, "");
      assert t + "" == t;
      assert t[|t|..] == "";
    } else if |ts| > 1 {
      SplitCons(ts[0], JoinWords(ts[1..]));
      SplitJoin(ts[1..]);
      assert ts == [ts[0]] + ts[1..];
    }
  }

  /** A word, a space and the rest split into the word followed by the rest's words. */
  lemma SplitCons(t: string, rest: string)
    requires |t| > 0 && NoSpace(t)
    ensures SplitWhitespace(t + " " + rest) == [t] + SplitWhitespace(rest)
  {
    var s := t + " " + rest;
    assert s == t + (" " + rest);
    TokenLengthOf(t, " " + rest);
    assert s[..|t|] == t;
    assert s[|t|..] == " " + rest;
    assert (" " + rest)[1..] == rest;
  }

  function DigitChar(d: int): char
    requires 0 <= d < 10
  {
    ('0' as int + d) as char
  }

  /** Decimal digits of `n`, most significant first, without leading zeros. */
  function NaturalDigits(n: nat): (r: string)
    ensures |r| > 0
    ensures forall i :: 0 <= i < |r| ==> '0' <= r[i] <= '9'
    ensures r[0] == '0' <==> n == 0
    decreases n
  {
    if n < 10 then [DigitChar(n)] else NaturalDigits(n / 10) + [DigitChar(n % 10)]
  }

  /** The number a string of decimal digits denotes, most significant digit first. */
  function DigitsValue(s: string): nat
    requires forall i :: 0 <= i < |s| ==> '0' <= s[i] <= '9'
  {
    if |s| == 0 then 0
    else DigitsValue(s[..|s| - 1]) * 10 + (s[|s| - 1] as int - '0' as int)
  }

  /** Reading the digits of `n` back gives `n`. */
  lemma {:induction false} NaturalDigitsValue(n: nat)
    ensures DigitsValue(NaturalDigits(n)) == n
    decreases n
  {
    if n >= 10 {
      NaturalDigitsValue(n / 10);
      var s := NaturalDigits(n);
      assert s[..|s| - 1] == NaturalDigits(n / 10);
    }
  }

  /**
   * The decimal text of an integer, as SQLite converts an integer for a
   * TEXT column (for 64-bit integers this is also Python's `str(n)`).
   */
  function DecimalString(n: int): string {
    if n < 0 then "-" + NaturalDigits(-n) else NaturalDigits(n)
  }

  /** Different integers have different decimal texts. */
  lemma DecimalStringInjective(a: int, b: int)
    ensures DecimalString(a) == DecimalString(b) <==> a == b
  {
    if a != b {
      DecimalStringDiffers(a, b);
    }
  }

  lemma DecimalStringDiffers(a: int, b: int)
    requires a != b
    ensures DecimalString(a) != DecimalString(b)
  {
    if a < 0 && b < 0 {
      NegativesDiffer(a, b);
    } else if a >= 0 && b >= 0 {
      NaturalDigitsDiffer(a, b);
    } else if a < 0 {
      SignDiffers(a, b);
    } else {
      SignDiffers(b, a);
    }
  }

  lemma NegativesDiffer(a: int, b: int)
    requires a < 0 && b < 0 && a != b
    ensures DecimalString(a) != DecimalString(b)
  {
    NaturalDigitsDiffer(-a, -b);
    var sa, sb := DecimalString(a), DecimalString(b);
    assert sa == "-" + NaturalDigits(-a) && sb == "-" + NaturalDigits(-b);
    assert sa[1..] == NaturalDigits(-a);
    assert sb[1..] == NaturalDigits(-b);
  }

  lemma NaturalDigitsDiffer(a: nat, b: nat)
    requires a != b
    ensures NaturalDigits(a) != NaturalDigits(b)
  {
    NaturalDigitsValue(a);
    NaturalDigitsValue(b);
  }

  /** A negative number's text starts with `-`, a natural number's with a digit. */
  lemma SignDiffers(a: int, b: int)
    requires a < 0 <= b
    ensures DecimalString(a) != DecimalString(b)
  {
    assert DecimalString(a)[0] == '-';
    assert '0' <= NaturalDigits(b)[0] <= '9';
  }
}

=== FILE: wrappers.dfy ===
/** Failure-carrying values shared by the other modules. */
module Wrappers {

  /** A value that may be absent: Python's `None` or a present value. */
  datatype Option<+T> = None | Some(value: T) {

    /** The present value, or `default` when absent. */
    function GetOr(default: T): T {
      match this
      case Some(v) => v
      case None => default
    }
  }

  /** The outcome of an operation that can raise: a value or the error raised. */
  datatype Result<+T, +E> = Success(value: T) | Failure(error: E)
}
